=== FILE: README.md ===
# gmatcha standup helper — a Dafny model of its pure cores

gmatcha is a web app for writing daily standups. A standup has three
sections: what you are working on, what you did yesterday, and your
blockers. This project models the parts of the app that are pure logic,
each written as functions on immutable values:

- **The paste parser** (`parseUpdate` in the paste dialog). It splits
  pasted text into lines and scans them with a two-state machine: either
  no section is open, or one is. Header lines match a configured label
  with optional `**`, `#`–`###`, a trailing `**` and a colon. Each
  section's block is then stored as a bullet list or as trimmed text.
  The header regular expression is a predicate over ways of cutting the
  line (`HeaderMatch`). The scanner is a fold over the lines
  (`PasteParser`).
- **The calendar view**:
  - `YYYY-MM-DD` day keys and the range fetched for a month (`Dates`,
    `Decimal`);
  - the stored standup text, three answers under their prompts separated
    by blank lines (`Record`);
  - the selection and edit state machine of the day card (`CalendarView`).
- **The bullet editor**: add, edit, cancel, delete and drag, where the
  edited index follows its bullet across a drag (`BulletEditor`). The
  list move of the drag-and-drop library is modelled as well
  (`ArrayMove`).
- **The settings panel**: show/hide switches that never hide every
  section, section reordering, reset, and change detection
  (`SettingsPanel`).
- **The shareable image card**: bullets or text per section, whether a
  section is drawn, and the header style (`ImageCard`).

`Common` holds `Option`, the three section ids and a three-slot record
`Triple`. `Text` models the JavaScript string operations the sources rely
on:
- `trim()` and `\s`, with the ECMAScript whitespace and line-terminator set;
- `split` and `join` with a string separator;
- `replace` with a string pattern, which replaces the first occurrence only;
- ASCII case folding.

Network calls are parameters. A save or delete takes the request's
success flag, and a refresh takes the fetched list. Today's key and the
deployment's configured header labels are parameters too.

## Model

| member | source | states |
|---|---|---|
| PasteParser.HeaderOf | components/PasteUpdateModal.tsx:102-124 | a line opens the lowest-numbered section whose header pattern matches it (section 1 before 2 before 3), and opens none exactly when no label's pattern matches |
| HeaderMatch.IsHeaderFor | components/PasteUpdateModal.tsx:58-63 | the header pattern as a predicate over ways of cutting the line; `HeaderIsDecorated` and `DecoratedLabelIsHeader` together say exactly which lines it accepts |
| HeaderMatch.HeaderIsDecoratedLabel | components/PasteUpdateModal.tsx:58-63 | a header line is its label (up to case) with only whitespace, `*`, `#` and `:` around it, so a label inside a sentence never makes a header |
| HeaderMatch.DecoratedLabelIsHeader | components/PasteUpdateModal.tsx:58-63 | the label in any ASCII case is a header line with any decoration the pattern allows: leading whitespace; then a `**`, or one to three `#` followed by whitespace; a trailing `**`; whitespace, an optional colon and whitespace |
| HeaderMatch.HeaderIsDecorated | components/PasteUpdateModal.tsx:58-63 | the converse: every header line is the label, up to ASCII case, written with exactly one of those decorations, so `*Today` or `#### Today` is not a header |
| HeaderMatch.HeaderIgnoresCase | components/PasteUpdateModal.tsx:62 | labels equal up to case recognise exactly the same header lines |
| PasteParser.BulletText | components/PasteUpdateModal.tsx:83-86 | the bullet kept from a bullet line is what follows the two-character marker of the trimmed line, with its leading whitespace removed; it is never empty and is trimmed |
| PasteParser.Bullets | components/PasteUpdateModal.tsx:76-87 | the bullets of a block are clean and never more than its lines, and there are none exactly when no line of the block is a bullet line |
| PasteParser.BulletsOfLine | components/PasteUpdateModal.tsx:76-87 | one line yields exactly its bullet text when it is a bullet line and nothing otherwise; with `BulletsAppend`, a block's bullets are its bullet lines' texts, one each, in line order |
| PasteParser.BulletsAppend | components/PasteUpdateModal.tsx:76-87 | bullets are collected in line order: the bullets of two consecutive pieces of a block are the bullets of each, concatenated |
| PasteParser.Flush | components/PasteUpdateModal.tsx:72-93 | a flushed block is a valid slot: text and bullets are never both present and everything is trimmed. It has bullets exactly when some line is a bullet line, and then they are the block's bullets and its text is empty; otherwise its text is the lines joined with newlines and trimmed |
| PasteParser.Step | components/PasteUpdateModal.tsx:95-130 | blank lines are skipped while no section is open; a header line stores the open block and starts its own, empty one; any other line joins an open block and is dropped when none is open |
| PasteParser.RunKeepsInvariant | components/PasteUpdateModal.tsx:95-135 | throughout the scan no line is collected before a section opens, no collected line is a header line, and every stored slot is valid, which still holds after the last flush |
| PasteParser.RunAppend | components/PasteUpdateModal.tsx:95-130 | the scan is a fold: scanning two pieces of the text one after the other gives the same state as scanning the whole |
| PasteParser.PreambleDropped | components/PasteUpdateModal.tsx:95-130 | lines before the first header line (blank lines or lines that are no header) never reach any slot |
| PasteParser.NoHeaderNoContent | components/PasteUpdateModal.tsx:48-137 | text without a header line parses into three empty slots |
| PasteParser.BlockRun | components/PasteUpdateModal.tsx:102-129 | one block stores whatever block was open, opens its header's section and collects exactly its own lines |
| PasteParser.ParseBlocks | components/PasteUpdateModal.tsx:95-137 | for a text made of header-led blocks whose header lines are all non-blank, each slot holds the flushed lines of the last non-empty block headed for its section. An empty block leaves the slot's earlier value, and header lines are never content |
| PasteParser.ParseDocument | components/PasteUpdateModal.tsx:95-137 | the same holds, under the same non-blank headers, with an ignorable preamble before the first header |
| PasteParser.Parse | components/PasteUpdateModal.tsx:47-138 | every slot of a parsed update is valid |
| PasteParser.HandlePaste | components/PasteUpdateModal.tsx:140-147 | whitespace-only input is ignored, and any other input is parsed into valid slots |
| PasteParser.NormalizeNewlines | components/PasteUpdateModal.tsx:55 | normalising never lengthens the text and leaves text without a carriage return unchanged; for a text written with CR LF line ends, `NormalizeUndoesCrlf` shows it gives back the text with LF |
| PasteParser.NormalizeUndoesCrlf | components/PasteUpdateModal.tsx:55 | line-ending normalisation turns text written with CR LF back into the same text with LF |
| PasteParser.CrlfParsesSame | components/PasteUpdateModal.tsx:55 | writing the line ends of a text as CR LF instead of LF does not change what it parses into |
| PasteParser.BlankParsesEmpty | components/PasteUpdateModal.tsx:95-137 | whitespace-only text parses into three empty slots |
| Text.Trim | components/PasteUpdateModal.tsx:96 | `trim()` returns a trimmed string no longer than its input, and returns the empty string exactly when the input is all whitespace |
| Text.TrimOfPadded | components/PasteUpdateModal.tsx:96 | trimming removes exactly the surrounding whitespace: a trimmed middle with whitespace around it comes back alone |
| Text.TrimIdempotent | components/PasteUpdateModal.tsx:84-85 | trimming a trimmed string changes nothing |
| Text.SplitOnLeftmost | components/PasteUpdateModal.tsx:55 | `split` cuts at the leftmost occurrences: joining the pieces with the separator restores the input, no piece contains the separator, and no occurrence starts inside a piece, even one running into the separator after it. These facts determine the pieces |
| Text.SplitJoinChar | components/Calendar.tsx:419 | splitting at a character undoes joining with it when no part contains it |
| Text.ReplaceFirst | components/Calendar.tsx:190-192 | replacing a pattern that does not occur leaves the string unchanged |
| Decimal.NatToString | components/Calendar.tsx:78-79 | `toString()` of a natural number is a numeral with no leading zero, one digit long exactly below ten |
| Decimal.NatToStringValue | components/Calendar.tsx:419 | `Number` of a number's decimal numeral is that number |
| Decimal.IntToString | components/Calendar.tsx:77-80 | `String(year)` reads back as the year, with a minus sign before the digits of a negative year |
| Decimal.PadStart2 | components/Calendar.tsx:78-79 | `padStart(2, "0")` puts zeros in front up to length two and keeps the string as its suffix |
| Decimal.TwoDigits | components/Calendar.tsx:78-79 | a number below 100, padded, is exactly two digits whose value is the number |
| Dates.DaysInMonth | components/Calendar.tsx:146 | a month has 28 to 31 days, and 29 exactly for February of a Gregorian leap year |
| Dates.DaysInYear | components/Calendar.tsx:146 | the twelve month lengths add up to 366 in a leap year and 365 otherwise |
| Dates.TwoDigit | components/Calendar.tsx:78-79 | a month or day is written as two digits that read back as it |
| Dates.FormatLocalDate | components/Calendar.tsx:76-81 | a day key is the year as `String` writes it, a dash, the month counted from 1 as exactly two digits, a dash, and the day as exactly two digits |
| Dates.MonthRange | components/Calendar.tsx:105-107 | the fetched range runs from the key of the first of the month to the key of its last day |
| Dates.ParseFormatted | components/Calendar.tsx:419-420 | reading back a formatted key gives the year, the month counted from 1 and the day it was made from |
| Dates.FormattedHasNoT | components/Calendar.tsx:76-81 | a formatted day key contains no `T` |
| Dates.MonthRangeCoversMonth | components/Calendar.tsx:105-107 | the range fetched for a month runs from its first to its last day, and every day of the month has a key between the bounds in string order; the delete path builds the same range (lines 267-269) |
| Dates.DateKey | components/Calendar.tsx:121 | a stored date's key is a prefix of it without `T`, and the date continues with `T` wherever the key stops short |
| Dates.DateKeyWithoutTime | components/Calendar.tsx:121 | a date without `T` is its own key |
| Dates.DateKeyIdempotent | components/Calendar.tsx:121 | taking the key of a key changes nothing |
| Dates.DateKeyOfFormatted | components/Calendar.tsx:121 | the key of a formatted day is that day's key |
| Dates.DateKeyOfTimestamp | components/Calendar.tsx:121 | a timestamp written as a key, `T` and a time files under that key |
| Record.Serialize | components/Calendar.tsx:201 | the saved text: each prompt line with its answer below, separated by blank lines; `RoundTrip` and `RoundTripOnlyIf` state exactly which answers read back |
| Record.Deserialize | components/Calendar.tsx:189-192 | reading fails exactly when the text has fewer than three blank-line separated chunks, where the source reads a missing chunk; in particular it fails for text without a blank line |
| Record.RoundTrip | components/Calendar.tsx:189-202 | the answers read back are exactly the saved ones when no answer contains a blank line or starts with a newline, and the first two are not empty and do not end with a newline; `RoundTripOnlyIf` gives the converse |
| Record.RoundTripOnlyIf | components/Calendar.tsx:189-202 | the converse of `RoundTrip`: answers read back exactly as saved only when they meet those conditions, so an empty, blank-lined or newline-edged answer never survives |
| Record.ExtraChunksIgnored | components/Calendar.tsx:189-192 | chunks after the third are ignored: a record whose three answers are not empty, have no blank line and no newline at either end reads back unchanged when more blank-line separated text follows it |
| Record.EmptyCurrentNotRecovered | components/Calendar.tsx:189-202 | an empty first answer is not read back: the prompt stays as the first answer and the second answer gains a leading newline |
| CalendarView.IndexUpdates | components/Calendar.tsx:119-125 | the marked days are exactly the days that have an indexed text |
| CalendarView.IndexedKeys | components/Calendar.tsx:119-125 | a day is indexed exactly when some fetched update with a date files under it |
| CalendarView.IndexedTextIsLast | components/Calendar.tsx:119-125 | a day's indexed text is that of the last fetched update filed under it |
| CalendarView.Refresh | components/Calendar.tsx:116-127 | a fetch replaces only the marks and texts: a day is marked exactly when some fetched update with a date is filed under it, every marked day has a text, and the selection, the edit mode and the form are unchanged |
| CalendarView.MonthChange | components/Calendar.tsx:138-141 | moving to another month clears the selected day and its update, and keeps the edit mode, the form and the marks |
| CalendarView.NewMonthClickLoadsFetched | components/Calendar.tsx:119-195 | after a month change and its fetch, clicking a day with a readable fetched update selects it out of edit mode, with the last update filed under it as the selected update |
| CalendarView.DayClick | components/Calendar.tsx:159-197 | an unmarked day opens an empty form in edit mode, even when already selected. Clicking the selected marked day deselects it, clears its update and keeps the form. A marked day without a stored text is selected out of edit mode with no update and the form unchanged. Any other marked day is selected out of edit mode with its answers read from its text, and the click fails exactly when that text cannot be read. Marks and texts never change |
| CalendarView.SaveEnabled | components/Calendar.tsx:522 | the save button is enabled when some answer has non-whitespace content; `NewDayOpensDisabledForm` shows an unmarked day's form starts disabled |
| CalendarView.NewDayOpensDisabledForm | components/Calendar.tsx:168-177 | an unmarked day opens an empty form whose save button is disabled |
| CalendarView.DoubleClickDeselects | components/Calendar.tsx:179-183 | clicking a marked day twice selects it and then deselects it |
| CalendarView.CloseDay | components/Calendar.tsx:452-456 | closing the card clears the selection and editing and keeps marks, texts and answers |
| CalendarView.Save | components/Calendar.tsx:199-251 | a successful save with a day selected marks the day, stores the serialised answers as its text and ends editing; otherwise nothing changes |
| CalendarView.SaveThenReopen | components/Calendar.tsx:189-237 | after saving recoverable answers, closing and reopening the day shows the same answers |
| CalendarView.SaveHidesReminder | components/Calendar.tsx:69-74 | saving today's standup hides the reminder |
| CalendarView.CancelEdit | components/Calendar.tsx:503-514 | cancelling ends editing and keeps the selection, marks and texts. The form gets the answers read from the selected update, or empty answers when there is none. It fails exactly when the selected update's text cannot be read |
| CalendarView.CancelDiscardsTyping | components/Calendar.tsx:503-509 | whatever was typed after the pencil button is discarded by cancel, back to the answers loaded on selection |
| CalendarView.Delete | components/Calendar.tsx:253-294 | a successful delete clears the selection and the edit mode, keeps the form, and marks exactly the days some refetched update is filed under; if the refetch fails the old marks and texts stay. A failed delete changes nothing |
| CalendarView.ShowReminder | components/Calendar.tsx:69-74 | the reminder shows while today is not marked; `RefreshMarksFetchedDays` and `SaveHidesReminder` pin when that is |
| CalendarView.RefreshMarksFetchedDays | components/Calendar.tsx:69-74 | after a fetch the reminder shows exactly when no fetched update files under today |
| ArrayMove.Move | components/Settings.tsx:108 | a move keeps the length and the elements, the moved element lands at the target, and without it both lists read the same |
| ArrayMove.MoveBack | components/BulletInput.tsx:156 | moving back to the original position undoes a move |
| ArrayMove.MoveTracksElement | components/BulletInput.tsx:159-168 | after a move, every element is found at its adjusted index |
| BulletEditor.AddBullet | components/BulletInput.tsx:173-181 | a non-blank input is appended trimmed after the existing bullets and the input cleared; a blank input changes nothing; clean bullets stay clean |
| BulletEditor.StartEdit | components/BulletInput.tsx:199-202 | editing a bullet starts from that bullet's text |
| BulletEditor.SaveEdit | components/BulletInput.tsx:204-212 | a non-blank edit replaces only the edited bullet, trimmed; a blank edit changes no bullet; editing always ends; clean bullets stay clean |
| BulletEditor.CancelEdit | components/BulletInput.tsx:214-217 | cancelling ends editing and keeps every bullet |
| BulletEditor.DeleteBullet | components/BulletInput.tsx:219-222 | exactly the bullet at the index is removed and the rest keep their order; an index naming no bullet removes nothing |
| BulletEditor.DragEnd | components/BulletInput.tsx:148-171 | a drag keeps the bullets as a permutation. The dragged bullet lands on the drop position and the others keep their order. The edited index still names the bullet being edited. A drop on itself, outside the list, or onto an id naming no bullet changes nothing |
| BulletEditor.DragEndKeepsValid | components/BulletInput.tsx:148-171 | a drag keeps the bullets clean and the edited index in range |
| SettingsPanel.ToggleSection | components/Settings.tsx:254-259 | the switch of the only shown section does nothing; any other switch flips that section's flag and nothing else |
| SettingsPanel.ToggleKeepsSomeVisible | components/Settings.tsx:254-259 | the switches never hide every section |
| SettingsPanel.ToggleTwice | components/Settings.tsx:254-259 | flipping a switch twice restores the settings |
| SettingsPanel.IndexOf | components/Settings.tsx:105-106 | `findIndex` returns the first position of a section, and -1 exactly when it is absent |
| SettingsPanel.OrderDragEnd | components/Settings.tsx:102-110 | a reorder keeps the sections and touches nothing else. It does nothing without a target, onto itself or for an unknown id. Otherwise the dragged section lands on the target's position and the others keep their order |
| SettingsPanel.DragKeepsSectionOrder | components/Settings.tsx:102-110 | after a reorder the order still holds each section exactly once |
| SettingsPanel.Reset | components/Settings.tsx:71-82 | reset restores the configured-or-fallback labels, format `none`, super mode off, every section shown and the order 1, 2, 3 |
| SettingsPanel.HasChangesAsWritten | components/Settings.tsx:85-91 | `hasChanges` as written compares labels, format, super mode and visibility against the reset values; `ReorderOnlyHidesReset` shows it misses the order |
| SettingsPanel.ReorderOnlyHidesReset | components/Settings.tsx:85-91 | as written, a changed order alone does not count as a change, though reset would undo it |
| SettingsPanel.HasChangesIffResetChanges | components/Settings.tsx:85-91 | with the order compared too, the reset button shows exactly when reset would change something |
| SettingsPanel.ResetIsIdempotent | components/Settings.tsx:71-91 | a second reset changes nothing, and after a reset neither change test finds a change |
| ImageCard.ContentToDisplay | components/StandupImageCard.tsx:60-65 | bullets are shown exactly in super mode with a non-empty bullet list, unchanged; otherwise `Trim(text)`, and nothing exactly when the text is blank |
| ImageCard.HeaderClass | components/StandupImageCard.tsx:46-58 | a header gets one of the four classes, the bold one exactly for format `bold` |
| ImageCard.HeaderFontPx | components/StandupImageCard.tsx:168 | a header's inline size is 18, 20 or 22 pixels, larger than 18 exactly for the `##` and `###` formats |
| ImageCard.FontMatchesClass | components/StandupImageCard.tsx:46-58 | the inline font size and the header class agree: 22px with the `##` class, 20px with the `###` class, 18px with the plain or bold class |
| ImageCard.DrawSectionFacts | components/StandupImageCard.tsx:154-177 | a section is drawn at most once, exactly when it is switched on and has content to show, under its own label and content, with the class and font size of its own header format |
| ImageCard.Card | components/StandupImageCard.tsx:153-228 | the card lists sections in the fixed order 1, 2, 3, whatever the settings' order. A section appears exactly when it is shown, with its own label, content, header class and font size |

## Left out

- The heuristic header families, the fallback for unmatched headers, the detected-label reporting and the newer/older role inference and rollover are not in the parser's code, which matches exact labels only; the model follows the code.
- HeaderMatch.HeaderIgnoresCase: case folding is ASCII only. The `i` flag of a JavaScript regular expression also folds letters outside ASCII.
- Network and persistence are not modelled: the calendar's fetches, the update and chat API routes, and the chat window. A save or delete is a success flag and a fetch is its result list. The refetch after a delete is an optional list, empty when it fails. A failing month fetch changes nothing, so `Refresh` is simply not applied.
- CalendarView.DayClick, CalendarView.CancelEdit: `None` stands for reading a chunk that is missing, which throws. The source has already applied some updates by then: the click has set the selected day and update (Calendar.tsx:185-187) and possibly the first answers (189-190); cancel has ended editing and possibly set the first answer (504-507). The next render then throws reading the missing chunk (lines 551 and 563). The model does not keep that partial state.
- PasteParser.ParseBlocks, PasteParser.ParseDocument: every block's header line must be non-blank. With an empty configured label a blank line inside a section is a header too; only then do these lemmas say nothing.
- CalendarView.ShowReminder: the Dismiss button (Calendar.tsx:312) hides the banner until the marks change again, and the Record Now button (319-323) clicks the day with today's day-of-month in the displayed month, which may be another month. Neither button is modelled.
- CalendarView.Save: the request body (method, id, timestamps) and the error banner are not modelled.
- Locale rendering (`toLocaleString`, `toLocaleDateString`), the weekday of the first of the month, the date animation, the confetti and all timers are left out. Today's key is a parameter.
- The month navigation's `Date` arithmetic is left out. Day keys are built from a year, a month index and a day that are assumed valid.
- Decimal.IntToString: years are any integer written with `String`. The mapping `Date` applies to two-digit years is not modelled.
- Dates.ParseFormatted: only keys the calendar formats itself are read back. Parts that are not plain digit strings read as no date. `Number` would turn them into NaN, zero or a signed value, and the card would show an invalid date.
- Text.ReplaceFirst: its own contract states only the case without an occurrence. The replaced case is stated through the record lemmas.
- BulletEditor.SaveEdit: requires the edited index to name a bullet. In JavaScript an index past the end would grow the array with holes. The editor never produces such an index.
- ArrayMove.Move: requires both positions to be in the list. The library also accepts a negative target counted from the end, but the callers only pass positions they found.
- The plain setters for header labels, the default header format and super mode are not modelled: they only store the value typed.
- The drag-and-drop sensors and collision detection are not modelled; only the resulting list move is.
- The image card's colours, spacing, markdown-free `formatHeader` and the rendering of bullets and paragraphs are not modelled.
- The progress button, the toast, the chat prompt text and the purely presentational components are not modelled.

## Findings

| source | as written | input that shows it | evidently intended | confidence | as-written member | corrected member |
|---|---|---|---|---|---|---|
| components/Settings.tsx:85-91 | `hasChanges` compares labels, format, super mode and visibility but not the section order, which `resetHeaders` also restores (line 81) | default settings with the order 2, 1, 3: `hasChanges` is false, so the reset button (lines 356-359) is hidden although reset would change the order | the reset button shows exactly when the settings differ from what reset produces, the order included | medium, not executed | SettingsPanel.ReorderOnlyHidesReset | SettingsPanel.HasChangesIffResetChanges |

=== FILE: arraymove.dfy ===
/** `arrayMove` of the sortable lists: the element at `from` is taken out
    and put back in at `to` (two `splice` calls on a copy). */
module ArrayMove {

  function RemoveAt<T>(s: seq<T>, i: nat): (r: seq<T>)
    requires i < |s|
    ensures |r| == |s| - 1
    ensures forall k :: 0 <= k < i ==> r[k] == s[k]
    ensures forall k :: i <= k < |r| ==> r[k] == s[k + 1]
  {
    s[..i] + s[i + 1..]
  }

  function InsertAt<T>(s: seq<T>, i: nat, x: T): (r: seq<T>)
    requires i <= |s|
    ensures |r| == |s| + 1 && r[i] == x
    ensures forall k :: 0 <= k < i ==> r[k] == s[k]
    ensures forall k :: i < k < |r| ==> r[k] == s[k - 1]
  {
    s[..i] + [x] + s[i..]
  }

  lemma RemoveAtMultiset<T>(s: seq<T>, i: nat)
    requires i < |s|
    ensures multiset(RemoveAt(s, i)) + multiset{s[i]} == multiset(s)
  {
    assert s == s[..i] + [s[i]] + s[i + 1..];
  }

  lemma InsertAtMultiset<T>(s: seq<T>, i: nat, x: T)
    requires i <= |s|
    ensures multiset(InsertAt(s, i, x)) == multiset(s) + multiset{x}
  {
    assert s == s[..i] + s[i..];
  }

  /** Taking an element out and putting it back where it was is the identity. */
  lemma InsertRemoved<T>(s: seq<T>, i: nat)
    requires i < |s|
    ensures InsertAt(RemoveAt(s, i), i, s[i]) == s
  {
  }

  /** `arrayMove(s, from, to)` for positions found in the list: the list
      keeps its length and its elements, the moved element lands at `to`,
      and without it both lists read the same. */
  function Move<T>(s: seq<T>, from: nat, to: nat): (r: seq<T>)
    requires from < |s| && to < |s|
    ensures |r| == |s|
    ensures r[to] == s[from]
    ensures RemoveAt(r, to) == RemoveAt(s, from)
    ensures multiset(r) == multiset(s)
  {
    RemoveAtMultiset(s, from);
    InsertAtMultiset(RemoveAt(s, from), to, s[from]);
    var r := InsertAt(RemoveAt(s, from), to, s[from]);
    assert RemoveAt(r, to) == RemoveAt(s, from);
    r
  }

  /** Moving back undoes a move. */
  lemma MoveBack<T>(s: seq<T>, from: nat, to: nat)
    requires from < |s| && to < |s|
    ensures Move(Move(s, from, to), to, from) == s
  {
    InsertRemoved(s, from);
  }

  /** Where the element at `e` is after moving `from` to `to`: the moved
      element goes to `to`, the elements between shift by one towards
      `from`, the others stay. */
  function AdjustIndex(e: nat, from: nat, to: nat): nat {
    if e == from then to
    else if from < e && to >= e then e - 1
    else if from > e && to <= e then e + 1
    else e
  }

  /** Every element can be found after a move at its adjusted position. */
  lemma MoveTracksElement<T>(s: seq<T>, from: nat, to: nat, e: nat)
    requires from < |s| && to < |s| && e < |s|
    ensures 0 <= AdjustIndex(e, from, to) < |s|
    ensures Move(s, from, to)[AdjustIndex(e, from, to)] == s[e]
  {
    var r := Move(s, from, to);
    var mid := RemoveAt(s, from);
    var a := AdjustIndex(e, from, to);
    if e != from {
      var m := if e < from then e else e - 1;
      assert mid[m] == s[e];
      assert a == (if m < to then m else m + 1);
    }
  }
}

=== FILE: bullets.dfy ===
/** The bullet-list editor of a section: a list of bullets, the input line
    for a new bullet, and at most one bullet being edited in place. */
module BulletEditor {
  import opened Common
  import opened Text
  import opened ArrayMove

  datatype Editor = Editor(bullets: seq<string>, input: string, editing: Option<nat>, editValue: string)

  /** Every bullet is stored trimmed and not empty. */
  predicate CleanBullets(bs: seq<string>) {
    forall k :: 0 <= k < |bs| ==> bs[k] != "" && IsTrimmed(bs[k])
  }

  /** The editor's invariant: clean bullets, and the edited index, if any,
      names a bullet. */
  predicate Valid(ed: Editor) {
    CleanBullets(ed.bullets) && (ed.editing.Some? ==> ed.editing.value < |ed.bullets|)
  }

  /** `handleAddBullet`: a non-blank input is appended trimmed and the input
      is cleared; a blank input changes nothing. */
  function AddBullet(ed: Editor): (r: Editor)
    ensures !HasContent(ed.input) ==> r == ed
    ensures HasContent(ed.input) ==> |r.bullets| == |ed.bullets| + 1 && r.bullets[..|ed.bullets|] == ed.bullets
    ensures HasContent(ed.input) ==> r.bullets[|ed.bullets|] == Trim(ed.input) && r.input == ""
    ensures Valid(ed) ==> Valid(r)
  {
    if Trim(ed.input) != "" then ed.(bullets := ed.bullets + [Trim(ed.input)], input := "") else ed
  }

  /** `handleStartEdit`: edit bullet `i`, starting from its text. */
  function StartEdit(ed: Editor, i: nat): (r: Editor)
    requires i < |ed.bullets|
    ensures r.editing == Some(i) && r.editValue == ed.bullets[i] && r.bullets == ed.bullets
    ensures Valid(ed) ==> Valid(r)
  {
    ed.(editing := Some(i), editValue := ed.bullets[i])
  }

  /** `handleSaveEdit`: a non-blank edit replaces the edited bullet with the
      trimmed text; a blank edit leaves the bullets alone. Either way editing
      ends. */
  function SaveEdit(ed: Editor): (r: Editor)
    requires ed.editing.Some? ==> ed.editing.value < |ed.bullets|
    ensures r.editing.None? && r.editValue == "" && |r.bullets| == |ed.bullets|
    ensures ed.editing.Some? && HasContent(ed.editValue) ==>
      r.bullets[ed.editing.value] == Trim(ed.editValue)
      && forall k :: 0 <= k < |r.bullets| && k != ed.editing.value ==> r.bullets[k] == ed.bullets[k]
    ensures ed.editing.None? || !HasContent(ed.editValue) ==> r.bullets == ed.bullets
    ensures Valid(ed) ==> Valid(r)
  {
    if ed.editing.Some? && Trim(ed.editValue) != "" then
      ed.(bullets := ed.bullets[ed.editing.value := Trim(ed.editValue)], editing := None, editValue := "")
    else ed.(editing := None, editValue := "")
  }

  /** `handleCancelEdit`: editing ends and the bullets are untouched. */
  function CancelEdit(ed: Editor): (r: Editor)
    ensures r.editing.None? && r.editValue == "" && r.bullets == ed.bullets
    ensures Valid(ed) ==> Valid(r)
  {
    ed.(editing := None, editValue := "")
  }

  /** `handleDeleteBullet`: the bullet at `i` is filtered out; an index that
      names no bullet removes nothing. The edited index is not touched: the
      edit field saves on blur before another bullet's button is clicked. */
  function DeleteBullet(ed: Editor, i: int): (r: Editor)
    ensures 0 <= i < |ed.bullets| ==> r.bullets == RemoveAt(ed.bullets, i)
    ensures !(0 <= i < |ed.bullets|) ==> r.bullets == ed.bullets
    ensures r.editing == ed.editing && r.input == ed.input
    ensures CleanBullets(ed.bullets) ==> CleanBullets(r.bullets)
  {
    if 0 <= i < |ed.bullets| then ed.(bullets := ed.bullets[..i] + ed.bullets[i + 1..]) else ed
  }

  /** `findIndex` over the item ids `bullet-0`, `bullet-1`, ...: the index an
      id names, or -1 when it names no bullet. */
  function FindIndex(n: nat, id: int): (r: int)
    ensures r == -1 || 0 <= r < n
  {
    if 0 <= id < n then id else -1
  }

  /** `handleDragEnd` for a drag of item `active` dropped over item `over`
      (none when dropped outside the list): the bullet moves, and the edited
      index follows the bullet being edited. */
  function DragEnd(ed: Editor, active: int, over: Option<int>): (r: Editor)
    ensures multiset(r.bullets) == multiset(ed.bullets) && |r.bullets| == |ed.bullets|
    ensures r.input == ed.input && r.editValue == ed.editValue
    ensures ed.editing.Some? && ed.editing.value < |ed.bullets| ==>
      r.editing.Some? && r.editing.value < |r.bullets| && r.bullets[r.editing.value] == ed.bullets[ed.editing.value]
    ensures ed.editing.None? ==> r.editing.None?
    ensures over.None? || over == Some(active) || FindIndex(|ed.bullets|, active) == -1 ==> r == ed
    ensures over.Some? && FindIndex(|ed.bullets|, over.value) == -1 ==> r == ed
    ensures over.Some? && over != Some(active) && 0 <= active < |ed.bullets| && 0 <= over.value < |ed.bullets| ==>
      r.bullets[over.value] == ed.bullets[active] && RemoveAt(r.bullets, over.value) == RemoveAt(ed.bullets, active)
  {
    if over == Some(active) then ed
    else
      var oldIndex := FindIndex(|ed.bullets|, active);
      var newIndex := if over.None? then -1 else FindIndex(|ed.bullets|, over.value);
      if oldIndex == -1 || newIndex == -1 then ed
      else
        var editing := match ed.editing
          case None => None
          case Some(e) => Some(AdjustIndex(e, oldIndex, newIndex));
        var r := ed.(bullets := Move(ed.bullets, oldIndex, newIndex), editing := editing);
        assert ed.editing.Some? && ed.editing.value < |ed.bullets| ==> r.editing.Some? && r.bullets[r.editing.value] == ed.bullets[ed.editing.value] by {
          if ed.editing.Some? && ed.editing.value < |ed.bullets| {
            MoveTracksElement(ed.bullets, oldIndex, newIndex, ed.editing.value);
          }
        }
        r
  }

  /** Every editor operation keeps the invariant. */
  lemma DragEndKeepsValid(ed: Editor, active: int, over: Option<int>)
    requires Valid(ed)
    ensures Valid(DragEnd(ed, active, over))
  {
    var r := DragEnd(ed, active, over);
    forall k | 0 <= k < |r.bullets| ensures r.bullets[k] != "" && IsTrimmed(r.bullets[k]) {
      assert r.bullets[k] in multiset(ed.bullets);
    }
  }
}

=== FILE: calendar.dfy ===
/** The calendar view: which days have a saved standup, the selected day,
    and the edit form for it. Network calls are parameters: a save or delete
    either succeeds or leaves the state as it was, and a refresh supplies the
    fetched updates. */
module CalendarView {
  import opened Common
  import opened Text
  import opened Record
  import opened Dates

  /** One stored standup as fetched: its date (a date or a timestamp) and its text. */
  datatype StoredUpdate = StoredUpdate(date: string, text: string)

  datatype Calendar = Calendar(
    datesWithUpdates: set<string>,
    updates: map<string, string>,
    selectedDay: Option<string>,
    selectedUpdate: Option<string>,
    editing: bool,
    fields: Fields)

  /** The fetched update `u` is filed under the day key `k`. */
  predicate FiledUnder(u: StoredUpdate, k: string) {
    u.date != "" && DateKey(u.date) == k
  }

  /** Indexing the fetched updates of a month (the `forEach` over the
      fetched list): an update with a date is filed under that date's key,
      and the marked days are the keys filed. */
  function IndexUpdates(items: seq<StoredUpdate>): (r: (set<string>, map<string, string>))
    ensures r.0 == r.1.Keys
  {
    if items == [] then ({}, map[])
    else
      var prev := IndexUpdates(items[..|items| - 1]);
      var last := items[|items| - 1];
      if last.date != "" then (prev.0 + {DateKey(last.date)}, prev.1[DateKey(last.date) := last.text])
      else prev
  }

  /** Some update of the list is filed under `k`. */
  predicate SomeFiled(items: seq<StoredUpdate>, k: string) {
    exists i :: 0 <= i < |items| && FiledUnder(items[i], k)
  }

  /** Some update of a list is filed under `k` exactly when one before the
      last is, or the last one is. */
  lemma FiledSnoc(items: seq<StoredUpdate>, k: string)
    requires items != []
    ensures SomeFiled(items, k) <==> SomeFiled(items[..|items| - 1], k) || FiledUnder(items[|items| - 1], k)
  {
    var init := items[..|items| - 1];
    assert forall i :: 0 <= i < |init| ==> init[i] == items[i];
  }

  /** A day is indexed exactly when some fetched update is filed under it. */
  lemma {:induction false} IndexedKeys(items: seq<StoredUpdate>, k: string)
    ensures k in IndexUpdates(items).1 <==> exists i :: 0 <= i < |items| && FiledUnder(items[i], k)
  {
    if items != [] {
      IndexedKeys(items[..|items| - 1], k);
      FiledSnoc(items, k);
    }
  }

  /** The last update filed under a day wins: the indexed text is that of an
      update filed under the day with no later update filed under it. */
  lemma {:induction false} IndexedTextIsLast(items: seq<StoredUpdate>, k: string) returns (i: nat)
    requires k in IndexUpdates(items).1
    ensures i < |items| && FiledUnder(items[i], k)
    ensures IndexUpdates(items).1[k] == items[i].text
    ensures forall j :: i < j < |items| ==> !FiledUnder(items[j], k)
  {
    var init := items[..|items| - 1];
    var last := items[|items| - 1];
    if FiledUnder(last, k) {
      i := |items| - 1;
    } else {
      i := IndexedTextIsLast(init, k);
      assert items[i] == init[i];
      forall j | i < j < |items| ensures !FiledUnder(items[j], k) {
        if j < |init| { assert items[j] == init[j]; }
      }
    }
  }

  /** The marked days of a fetched list are exactly the days some fetched
      update is filed under. */
  lemma IndexedKeysAll(items: seq<StoredUpdate>)
    ensures forall k :: k in IndexUpdates(items).1 <==> exists i :: 0 <= i < |items| && FiledUnder(items[i], k)
  {
    forall k ensures k in IndexUpdates(items).1 <==> exists i :: 0 <= i < |items| && FiledUnder(items[i], k) {
      IndexedKeys(items, k);
    }
  }

  /** A month's updates were fetched (the effect on the month and the user):
      the marks and texts are replaced by those of the fetched list, and the
      selection, the edit mode and the form are left as they were. */
  function Refresh(st: Calendar, fetched: seq<StoredUpdate>): (r: Calendar)
    ensures r.datesWithUpdates == r.updates.Keys
    ensures forall k :: k in r.updates <==> exists i :: 0 <= i < |fetched| && FiledUnder(fetched[i], k)
    ensures r.selectedDay == st.selectedDay && r.selectedUpdate == st.selectedUpdate
    ensures r.editing == st.editing && r.fields == st.fields
  {
    var index := IndexUpdates(fetched);
    IndexedKeysAll(fetched);
    st.(datesWithUpdates := index.0, updates := index.1)
  }

  /** Moving to another month (the effect on the month alone): the selected
      day and its update are cleared; the edit mode, the form and the marks
      stay until the month's fetch replaces the marks. */
  function MonthChange(st: Calendar): (r: Calendar)
    ensures r.selectedDay.None? && r.selectedUpdate.None?
    ensures r.editing == st.editing && r.fields == st.fields
    ensures r.datesWithUpdates == st.datesWithUpdates && r.updates == st.updates
  {
    st.(selectedDay := None, selectedUpdate := None)
  }

  /** Clicking the day with key `key`. A day without a saved standup opens an
      empty form; clicking the selected day again deselects it; any other
      marked day is selected and its text read into the form. `None` is the
      case where the stored text has fewer than three chunks, where the
      source fails reading a missing chunk. */
  function DayClick(st: Calendar, key: string): (r: Option<Calendar>)
    ensures r.Some? ==> r.value.datesWithUpdates == st.datesWithUpdates && r.value.updates == st.updates
    ensures r.Some? ==> (r.value.selectedDay.None? <==> key in st.datesWithUpdates && st.selectedDay == Some(key))
    ensures r.Some? && r.value.selectedDay.Some? ==> r.value.selectedDay == Some(key)
    ensures r.Some? ==> (r.value.editing <==> key !in st.datesWithUpdates)
    ensures key !in st.datesWithUpdates ==> r == Some(st.(selectedDay := Some(key), selectedUpdate := None, editing := true, fields := NoFields))
    ensures r.None? <==> key in st.datesWithUpdates && st.selectedDay != Some(key) && key in st.updates
                         && Deserialize(st.updates[key]).None?
    ensures r.Some? && key in st.datesWithUpdates && st.selectedDay != Some(key) && key in st.updates ==>
      r.value.selectedUpdate == Some(st.updates[key]) && Some(r.value.fields) == Deserialize(st.updates[key])
    ensures r.Some? && r.value.selectedDay.None? ==> r.value.selectedUpdate.None? && r.value.fields == st.fields
    ensures key in st.datesWithUpdates && st.selectedDay != Some(key) && key !in st.updates ==>
      r == Some(st.(selectedDay := Some(key), selectedUpdate := None, editing := false))
  {
    if key !in st.datesWithUpdates then
      Some(st.(selectedDay := Some(key), selectedUpdate := None, editing := true, fields := NoFields))
    else if st.selectedDay == Some(key) then
      Some(st.(selectedDay := None, selectedUpdate := None, editing := false))
    else if key !in st.updates then
      Some(st.(selectedDay := Some(key), selectedUpdate := None, editing := false))
    else match Deserialize(st.updates[key])
      case None => None
      case Some(f) => Some(st.(selectedDay := Some(key), selectedUpdate := Some(st.updates[key]), editing := false, fields := f))
  }

  /** The close button of the day card. */
  function CloseDay(st: Calendar): (r: Calendar)
    ensures r.selectedDay.None? && r.selectedUpdate.None? && !r.editing
    ensures r.datesWithUpdates == st.datesWithUpdates && r.updates == st.updates && r.fields == st.fields
  {
    st.(selectedDay := None, selectedUpdate := None, editing := false)
  }

  /** The pencil button: edit the selected day's standup. */
  function StartEditing(st: Calendar): Calendar {
    st.(editing := true)
  }

  /** Typing into the three text areas. */
  function EditFields(st: Calendar, f: Fields): Calendar {
    st.(fields := f)
  }

  /** The save button is enabled when some answer is not blank. */
  predicate SaveEnabled(f: Fields) {
    HasContent(f.current) || HasContent(f.yesterday) || HasContent(f.blockers)
  }

  /** `handleSave` after the request returned with status `ok`: on success the
      day is marked, its text is the serialised form and editing stops;
      without a selected day, or on failure, nothing changes. */
  function Save(st: Calendar, ok: bool): (r: Calendar)
    ensures st.selectedDay.None? || !ok ==> r == st
    ensures st.selectedDay.Some? && ok ==>
      && r.datesWithUpdates == st.datesWithUpdates + {st.selectedDay.value}
      && r.updates == st.updates[st.selectedDay.value := Serialize(st.fields)]
      && r.selectedDay == st.selectedDay && r.selectedUpdate == Some(Serialize(st.fields))
      && !r.editing && r.fields == st.fields
  {
    if st.selectedDay.None? || !ok then st
    else
      var key := st.selectedDay.value;
      var text := Serialize(st.fields);
      st.(datesWithUpdates := st.datesWithUpdates + {key}, updates := st.updates[key := text],
          selectedUpdate := Some(text), editing := false)
  }

  /** The cancel button of the edit form: editing stops and the form goes
      back to the selected day's saved answers, or to empty answers for a
      day without one. `None` is the failing read of a malformed text. */
  function CancelEdit(st: Calendar): (r: Option<Calendar>)
    ensures st.selectedUpdate.None? ==> r == Some(st.(editing := false, fields := NoFields))
    ensures st.selectedUpdate.Some? && r.Some? ==> Some(r.value.fields) == Deserialize(st.selectedUpdate.value)
    ensures r.Some? ==> !r.value.editing && r.value.selectedDay == st.selectedDay && r.value.selectedUpdate == st.selectedUpdate
    ensures r.Some? ==> r.value.datesWithUpdates == st.datesWithUpdates && r.value.updates == st.updates
    ensures r.None? <==> st.selectedUpdate.Some? && Deserialize(st.selectedUpdate.value).None?
  {
    match st.selectedUpdate
      case None => Some(st.(editing := false, fields := NoFields))
      case Some(text) =>
        match Deserialize(text)
          case None => None
          case Some(f) => Some(st.(editing := false, fields := f))
  }

  /** `handleDelete` after the delete returned with status `ok`: on success the
      selection and the edit mode are cleared, then the month is fetched
      again; `refetched` is the fetched list, or `None` when that fetch
      fails and the old marks stay. On failure nothing changes. */
  function Delete(st: Calendar, ok: bool, refetched: Option<seq<StoredUpdate>>): (r: Calendar)
    ensures !ok ==> r == st
    ensures ok ==> r.selectedDay.None? && r.selectedUpdate.None? && !r.editing && r.fields == st.fields
    ensures ok && refetched.Some? ==> r.datesWithUpdates == r.updates.Keys
    ensures ok && refetched.Some? ==>
      forall k :: k in r.updates <==> exists i :: 0 <= i < |refetched.value| && FiledUnder(refetched.value[i], k)
    ensures ok && refetched.None? ==> r.datesWithUpdates == st.datesWithUpdates && r.updates == st.updates
  {
    if !ok then st
    else
      var cleared := st.(selectedDay := None, selectedUpdate := None, editing := false);
      match refetched
        case None => cleared
        case Some(items) => Refresh(cleared, items)
  }

  /** The reminder banner as set whenever the marks change: shown while
      today has no saved standup. Its Dismiss and Record Now buttons are
      not modelled. */
  predicate ShowReminder(st: Calendar, today: string) {
    today !in st.datesWithUpdates
  }

  // ---------------------------------------------------------------------
  // Properties across operations

  /** Clicking a marked day twice selects it and then deselects it. */
  lemma DoubleClickDeselects(st: Calendar, key: string)
    requires key in st.datesWithUpdates && st.selectedDay != Some(key)
    requires DayClick(st, key).Some?
    ensures DayClick(DayClick(st, key).value, key).Some?
    ensures DayClick(DayClick(st, key).value, key).value.selectedDay.None?
    ensures DayClick(DayClick(st, key).value, key).value.selectedUpdate.None?
  {
  }

  /** A day without a standup opens an empty form in edit mode, whose save
      button stays disabled until something is typed. */
  lemma NewDayOpensDisabledForm(st: Calendar, key: string)
    requires key !in st.datesWithUpdates
    ensures DayClick(st, key).Some? && DayClick(st, key).value.editing
    ensures !SaveEnabled(DayClick(st, key).value.fields)
  {
  }

  /** What is saved is what is shown again: after saving a recoverable form,
      closing the day and clicking it again, the form holds the same answers. */
  lemma SaveThenReopen(st: Calendar)
    requires st.selectedDay.Some? && Recoverable(st.fields)
    ensures DayClick(CloseDay(Save(st, true)), st.selectedDay.value).Some?
    ensures DayClick(CloseDay(Save(st, true)), st.selectedDay.value).value.fields == st.fields
    ensures DayClick(CloseDay(Save(st, true)), st.selectedDay.value).value.selectedUpdate == Some(Serialize(st.fields))
  {
    RoundTrip(st.fields);
  }

  /** Cancelling an edit of a loaded day discards whatever was typed and
      brings back the answers read when the day was selected. */
  lemma CancelDiscardsTyping(st: Calendar, key: string, typed: Fields)
    requires DayClick(st, key).Some? && DayClick(st, key).value.selectedUpdate.Some?
    ensures CancelEdit(EditFields(StartEditing(DayClick(st, key).value), typed)).Some?
    ensures CancelEdit(EditFields(StartEditing(DayClick(st, key).value), typed)).value.fields == DayClick(st, key).value.fields
  {
  }

  /** Saving today's standup hides the reminder. */
  lemma SaveHidesReminder(st: Calendar, today: string)
    requires st.selectedDay == Some(today)
    ensures !ShowReminder(Save(st, true), today)
  {
  }

  /** A refreshed month marks a day exactly when some fetched update is filed
      under it, and the reminder follows. */
  lemma RefreshMarksFetchedDays(st: Calendar, fetched: seq<StoredUpdate>, today: string)
    ensures ShowReminder(Refresh(st, fetched), today) <==> forall i :: 0 <= i < |fetched| ==> !FiledUnder(fetched[i], today)
  {
    IndexedKeys(fetched, today);
  }

  /** After moving to another month and fetching it, clicking a day some
      readable fetched update is filed under selects that day, out of edit
      mode, with the last such update as the selected update. */
  lemma NewMonthClickLoadsFetched(st: Calendar, fetched: seq<StoredUpdate>, key: string, i: nat)
    requires i < |fetched| && FiledUnder(fetched[i], key)
    requires forall j :: 0 <= j < |fetched| && FiledUnder(fetched[j], key) ==> Deserialize(fetched[j].text).Some?
    ensures DayClick(Refresh(MonthChange(st), fetched), key).Some?
    ensures DayClick(Refresh(MonthChange(st), fetched), key).value.selectedDay == Some(key)
    ensures !DayClick(Refresh(MonthChange(st), fetched), key).value.editing
    ensures exists j :: (0 <= j < |fetched| && FiledUnder(fetched[j], key)
      && DayClick(Refresh(MonthChange(st), fetched), key).value.selectedUpdate == Some(fetched[j].text)
      && forall m :: j < m < |fetched| ==> !FiledUnder(fetched[m], key))
  {
    IndexedKeys(fetched, key);
    var j := IndexedTextIsLast(fetched, key);
  }
}

=== FILE: common.dfy ===
/** Shared vocabulary of the standup note: the three section identities and a
    record that holds one value per section. */
module Common {

  /** The conventional Some/None datatype. */
  datatype Option<T> = None | Some(value: T)

  /** The three fixed sections of a standup note ('section1' .. 'section3'). */
  datatype SectionId = Section1 | Section2 | Section3 {
    /** The section's position in the fixed order 1, 2, 3. */
    function Rank(): nat {
      match this
      case Section1 => 1
      case Section2 => 2
      case Section3 => 3
    }
  }

  /** One value per section, as the source keeps `header1/2/3`, `showSection1/2/3`
      or `section1/2/3` side by side. */
  datatype Triple<T> = Triple(first: T, second: T, third: T) {

    function Get(id: SectionId): T {
      match id
      case Section1 => first
      case Section2 => second
      case Section3 => third
    }

    /** Replaces the value of one section and keeps the other two. */
    function Set(id: SectionId, v: T): (r: Triple<T>)
      ensures r.Get(id) == v
      ensures forall o :: o != id ==> r.Get(o) == Get(o)
    {
      match id
      case Section1 => Triple(v, second, third)
      case Section2 => Triple(first, v, third)
      case Section3 => Triple(first, second, v)
    }
  }

  /** A triple holding the same value for every section. */
  function Same<T>(v: T): Triple<T> {
    Triple(v, v, v)
  }

  /** A non-empty sequence is its front followed by its last element. */
  lemma SplitLast<T>(s: seq<T>)
    requires s != []
    ensures s == s[..|s| - 1] + [s[|s| - 1]]
  {
  }

  /** Moving the first element of `b` to the end of `a` keeps `a + b`. */
  lemma ShiftFirst<T>(a: seq<T>, b: seq<T>)
    requires b != []
    ensures a + [b[0]] + b[1..] == a + b
  {
  }

  /** Three elements consed in front of a sequence, one at a time. */
  lemma Cons3<T>(a: T, b: T, c: T, s: seq<T>)
    ensures [a] + ([b] + ([c] + s)) == [a, b, c] + s
  {
  }

  /** Concatenation regrouped to the right. */
  lemma Nest3<T>(a: seq<T>, sep: seq<T>, b: seq<T>, c: seq<T>)
    ensures a + sep + b + sep + c == a + sep + (b + sep + c)
  {
  }

  lemma Nest4<T>(a: seq<T>, sep: seq<T>, b: seq<T>, c: seq<T>, d: seq<T>)
    ensures a + sep + b + sep + c + sep + d == a + sep + (b + sep + (c + sep + d))
  {
  }
}

=== FILE: dates.dfy ===
/** Calendar dates as the calendar view handles them: `YYYY-MM-DD` keys in
    local time, the month's day count, the range fetched for a month, and the
    key read back from a stored timestamp. */
module Dates {
  import opened Common
  import opened Text
  import opened Decimal

  /** The numbers a date key is read back as: the year, the month counted
      from 1, and the day of the month. */
  datatype DateParts = DateParts(year: nat, month: nat, day: nat)

  /** Leap years of the proleptic Gregorian calendar that `Date` uses. */
  predicate IsLeap(year: int) {
    (year % 4 == 0 && year % 100 != 0) || year % 400 == 0
  }

  /** `new Date(year, monthIndex + 1, 0).getDate()`: the last day of the month
      with index `monthIndex` (0 is January). */
  function DaysInMonth(year: int, monthIndex: nat): (r: nat)
    requires monthIndex < 12
    ensures 28 <= r <= 31
    ensures r == 29 <==> monthIndex == 1 && IsLeap(year)
  {
    if monthIndex == 1 then (if IsLeap(year) then 29 else 28)
    else if monthIndex == 3 || monthIndex == 5 || monthIndex == 8 || monthIndex == 10 then 30
    else 31
  }

  /** The twelve month lengths add up to the length of the year. */
  function DaysInYear(year: int): (r: nat)
    ensures r == if IsLeap(year) then 366 else 365
  {
    DaysInMonth(year, 0) + DaysInMonth(year, 1) + DaysInMonth(year, 2) + DaysInMonth(year, 3)
    + DaysInMonth(year, 4) + DaysInMonth(year, 5) + DaysInMonth(year, 6) + DaysInMonth(year, 7)
    + DaysInMonth(year, 8) + DaysInMonth(year, 9) + DaysInMonth(year, 10) + DaysInMonth(year, 11)
  }

  /** `n.toString().padStart(2, "0")` for a month or a day: two digits that
      read back as `n`. */
  function TwoDigit(n: nat): (r: string)
    requires n < 100
    ensures |r| == 2 && IsNumeral(r) && DigitsValue(r) == n
  {
    TwoDigits(n);
    PadStart2(NatToString(n))
  }

  /** The part of a date key shared by every day of a month: `YYYY-MM-`. */
  function MonthPrefix(year: int, monthIndex: nat): (r: string)
    requires monthIndex < 12
  {
    IntToString(year) + "-" + TwoDigit(monthIndex + 1) + "-"
  }

  /** `formatLocalDate`: the year as written by `toString`, then the month
      (counted from 1) and the day, each padded to two digits. */
  function FormatLocalDate(year: int, monthIndex: nat, day: nat): (r: string)
    requires monthIndex < 12 && 1 <= day <= 31
    ensures IsDayKey(r, IntToString(year), monthIndex + 1, day)
  {
    var y, m, d := IntToString(year), TwoDigit(monthIndex + 1), TwoDigit(day);
    KeyLayout(y, m, d);
    y + "-" + m + "-" + d
  }

  /** `r` is the year as written `y`, a dash, two digits with the value
      `month`, a dash, and two digits with the value `day`. */
  predicate IsDayKey(r: string, y: string, month: nat, day: nat) {
    && |r| == |y| + 6
    && r[..|y|] == y && r[|y|] == '-' && r[|y| + 3] == '-'
    && IsNumeral(r[|y| + 1..|y| + 3]) && DigitsValue(r[|y| + 1..|y| + 3]) == month
    && IsNumeral(r[|y| + 4..]) && DigitsValue(r[|y| + 4..]) == day
  }

  /** Where the parts of a `YYYY-MM-DD` key sit. */
  lemma KeyLayout(y: string, m: string, d: string)
    requires |m| == 2 && |d| == 2 && IsNumeral(m) && IsNumeral(d)
    ensures IsDayKey(y + "-" + m + "-" + d, y, DigitsValue(m), DigitsValue(d))
  {
    var r := y + "-" + m + "-" + d;
    assert r[|y| + 1..|y| + 3] == m;
    assert r[|y| + 4..] == d;
  }

  lemma DigitsHaveNoDash(s: string)
    requires AllDigits(s)
    ensures '-' !in s && 'T' !in s
  {
    assert forall i :: 0 <= i < |s| ==> IsDigit(s[i]);
  }

  lemma YearHasNoT(year: int)
    ensures 'T' !in IntToString(year)
    ensures year >= 0 ==> '-' !in IntToString(year)
  {
    var y := IntToString(year);
    if year >= 0 {
      DigitsHaveNoDash(y);
    } else {
      DigitsHaveNoDash(y[1..]);
      assert y == [y[0]] + y[1..];
    }
  }

  lemma TwoDigitHasNoSeparator(n: nat)
    requires n < 100
    ensures '-' !in TwoDigit(n) && 'T' !in TwoDigit(n)
  {
    DigitsHaveNoDash(TwoDigit(n));
  }

  /** A formatted key has no `T`, so it is never cut by the timestamp split. */
  lemma FormattedHasNoT(year: int, monthIndex: nat, day: nat)
    requires monthIndex < 12 && 1 <= day <= 31
    ensures 'T' !in FormatLocalDate(year, monthIndex, day)
  {
    var y := IntToString(year);
    var m := TwoDigit(monthIndex + 1);
    var d := TwoDigit(day);
    YearHasNoT(year);
    TwoDigitHasNoSeparator(monthIndex + 1);
    TwoDigitHasNoSeparator(day);
    CharNotInKey('T', y, m, d);
    assert FormatLocalDate(year, monthIndex, day) == y + "-" + m + "-" + d;
  }

  lemma CharNotInKey(c: char, y: string, m: string, d: string)
    requires c != '-' && c !in y && c !in m && c !in d
    ensures c !in y + "-" + m + "-" + d
  {
  }

  /** Three dash-free parts joined with dashes split back into those parts. */
  lemma SplitThree(y: string, m: string, d: string)
    requires '-' !in y && '-' !in m && '-' !in d
    ensures SplitOn(y + "-" + m + "-" + d, "-") == [y, m, d]
    ensures '-' in y + "-" + m + "-" + d
  {
    assert Join([m, d], "-") == m + "-" + d;
    assert Join([y, m, d], "-") == y + "-" + (m + "-" + d);
    assert y + "-" + m + "-" + d == Join([y, m, d], "-");
    SplitJoinChar([y, m, d], '-');
    assert (y + "-" + m + "-" + d)[|y|] == '-';
  }

  /** `key.split('-').map(Number)` as the date card reads a selected key: the
      first three parts, when each is a numeral. */
  function ParseDateKey(key: string): (r: Option<DateParts>)
    ensures '-' !in key ==> r.None?
  {
    var parts := SplitOn(key, "-");
    if '-' !in key then
      ContainsChar(key, '-');
      SplitOnNone(key, "-");
      None
    else if |parts| >= 3 && IsNumeral(parts[0]) && IsNumeral(parts[1]) && IsNumeral(parts[2]) then
      Some(DateParts(DigitsValue(parts[0]), DigitsValue(parts[1]), DigitsValue(parts[2])))
    else None
  }

  /** Reading a formatted key back gives the date it was made from, with the
      month counted from 1, so `new Date(year, month - 1, day)` is that day
      again. */
  lemma ParseFormatted(year: nat, monthIndex: nat, day: nat)
    requires monthIndex < 12 && 1 <= day <= 31
    ensures ParseDateKey(FormatLocalDate(year, monthIndex, day)) == Some(DateParts(year, monthIndex + 1, day))
  {
    var y := IntToString(year);
    var m := TwoDigit(monthIndex + 1);
    var d := TwoDigit(day);
    YearHasNoT(year);
    TwoDigitHasNoSeparator(monthIndex + 1);
    TwoDigitHasNoSeparator(day);
    var key := FormatLocalDate(year, monthIndex, day);
    assert key == y + "-" + m + "-" + d;
    SplitThree(y, m, d);
    assert '-' in key;
    var parts := SplitOn(key, "-");
    assert parts == [y, m, d];
    assert IsNumeral(parts[0]) && DigitsValue(parts[0]) == year;
    assert IsNumeral(parts[1]) && DigitsValue(parts[1]) == monthIndex + 1;
    assert IsNumeral(parts[2]) && DigitsValue(parts[2]) == day;
  }

  /** The range fetched for a month: its first and its last day. */
  function MonthRange(year: int, monthIndex: nat): (r: (string, string))
    requires monthIndex < 12
    ensures r.0 == FormatLocalDate(year, monthIndex, 1)
    ensures r.1 == FormatLocalDate(year, monthIndex, DaysInMonth(year, monthIndex))
  {
    var prefix := MonthPrefix(year, monthIndex);
    FirstDayDigits();
    (prefix + "01", prefix + TwoDigit(DaysInMonth(year, monthIndex)))
  }

  lemma FirstDayDigits()
    ensures TwoDigit(1) == "01"
  {
    assert DigitChar(1) == '1';
    assert NatToString(1) == "1";
  }

  /** Two-digit numerals compare as strings the way their values compare. */
  lemma TwoDigitOrder(x: string, y: string)
    requires |x| == 2 && |y| == 2 && AllDigits(x) && AllDigits(y)
    requires DigitsValue(x) <= DigitsValue(y)
    ensures LexLe(x, y)
  {
    assert x[..1] == [x[0]] && y[..1] == [y[0]];
    assert DigitsValue([x[0]]) == x[0] as int - '0' as int;
    assert DigitsValue([y[0]]) == y[0] as int - '0' as int;
    assert x[1..][1..] == [] && y[1..][1..] == [];
  }

  /** The fetched range covers the month: every day of it has a key between
      the two ends in string order. */
  lemma MonthRangeCoversMonth(year: int, monthIndex: nat, day: nat)
    requires monthIndex < 12 && 1 <= day <= DaysInMonth(year, monthIndex)
    ensures LexLe(MonthRange(year, monthIndex).0, FormatLocalDate(year, monthIndex, day))
    ensures LexLe(FormatLocalDate(year, monthIndex, day), MonthRange(year, monthIndex).1)
  {
    var prefix := MonthPrefix(year, monthIndex);
    var last := DaysInMonth(year, monthIndex);
    TwoDigitOrder(TwoDigit(1), TwoDigit(day));
    TwoDigitOrder(TwoDigit(day), TwoDigit(last));
    LexCommonPrefix(prefix, TwoDigit(1), TwoDigit(day));
    LexCommonPrefix(prefix, TwoDigit(day), TwoDigit(last));
  }

  /** `date.split("T")[0]`: the stored date up to its first `T`. */
  function DateKey(stored: string): (r: string)
    ensures StartsWith(stored, r)
    ensures 'T' !in r
    ensures |r| < |stored| ==> stored[|r|] == 'T'
  {
    SplitFirstChunk(stored, 'T');
    SplitOn(stored, "T")[0]
  }

  /** A string with no `T` is its own key. */
  lemma DateKeyWithoutTime(s: string)
    requires 'T' !in s
    ensures DateKey(s) == s
  {
    ContainsChar(s, 'T');
    SplitOnNone(s, "T");
  }

  /** Keys are stable: the key of a key, or of a formatted date, is itself. */
  lemma DateKeyIdempotent(stored: string)
    ensures DateKey(DateKey(stored)) == DateKey(stored)
  {
    DateKeyWithoutTime(DateKey(stored));
  }

  lemma DateKeyOfFormatted(year: int, monthIndex: nat, day: nat)
    requires monthIndex < 12 && 1 <= day <= 31
    ensures DateKey(FormatLocalDate(year, monthIndex, day)) == FormatLocalDate(year, monthIndex, day)
  {
    FormattedHasNoT(year, monthIndex, day);
    DateKeyWithoutTime(FormatLocalDate(year, monthIndex, day));
  }

  /** A timestamp written as the key followed by `T` and a time maps to the key. */
  lemma DateKeyOfTimestamp(key: string, time: string)
    requires 'T' !in key
    ensures DateKey(key + "T" + time) == key
  {
    var s := key + "T" + time;
    var r := DateKey(s);
    assert s[|key|] == 'T';
    assert forall i :: 0 <= i < |key| ==> s[i] == key[i];
    assert r == s[..|r|];
  }
}

=== FILE: decimal.dfy ===
/** Decimal numerals: `toString()` of an integer, `padStart(2, "0")`, and the
    value `Number(...)` reads back from a string of digits. */
module Decimal {

  predicate IsDigit(c: char) {
    '0' <= c <= '9'
  }

  predicate AllDigits(s: string) {
    forall i :: 0 <= i < |s| ==> IsDigit(s[i])
  }

  /** A non-empty string of decimal digits. */
  predicate IsNumeral(s: string) {
    |s| > 0 && AllDigits(s)
  }

  function DigitChar(d: nat): (c: char)
    requires d < 10
    ensures IsDigit(c) && c as int - '0' as int == d
  {
    ('0' as int + d) as char
  }

  /** The value of a string of digits, most significant digit first. */
  function DigitsValue(s: string): nat
    requires AllDigits(s)
  {
    if s == [] then 0 else DigitsValue(s[..|s| - 1]) * 10 + (s[|s| - 1] as int - '0' as int)
  }

  /** `n.toString()` for a natural number: at least one digit, and no leading
      zero unless the number is zero itself. */
  function NatToString(n: nat): (r: string)
    ensures IsNumeral(r)
    ensures |r| > 1 ==> r[0] != '0'
    ensures n < 10 <==> |r| == 1
  {
    if n < 10 then [DigitChar(n)] else NatToString(n / 10) + [DigitChar(n % 10)]
  }

  /** Reading back the numeral of `n` gives `n`. */
  lemma {:induction false} NatToStringValue(n: nat)
    ensures DigitsValue(NatToString(n)) == n
  {
    if n >= 10 {
      var r := NatToString(n);
      NatToStringValue(n / 10);
      assert r[..|r| - 1] == NatToString(n / 10);
    }
  }

  /** `String(i)` for an integer: a minus sign before the digits of a
      negative number. */
  function IntToString(i: int): (r: string)
    ensures i >= 0 ==> IsNumeral(r) && DigitsValue(r) == i
    ensures i < 0 ==> |r| >= 2 && r[0] == '-' && IsNumeral(r[1..]) && DigitsValue(r[1..]) == -i
  {
    if i < 0 then
      NatToStringValue(-i);
      "-" + NatToString(-i)
    else
      NatToStringValue(i);
      NatToString(i)
  }

  /** `s.padStart(2, "0")`: zeros in front up to length two; a longer string
      is left alone. */
  function PadStart2(s: string): (r: string)
    ensures |r| == if |s| >= 2 then |s| else 2
    ensures r[|r| - |s|..] == s
    ensures forall i :: 0 <= i < |r| - |s| ==> r[i] == '0'
  {
    if |s| >= 2 then s else seq(2 - |s|, _ => '0') + s
  }

  /** A leading zero does not change the value of a numeral. */
  lemma {:induction false} LeadingZeroValue(s: string)
    requires AllDigits(s)
    ensures AllDigits("0" + s) && DigitsValue("0" + s) == DigitsValue(s)
    decreases |s|
  {
    if s != [] {
      var z := "0" + s;
      assert z[..|z| - 1] == "0" + s[..|s| - 1];
      LeadingZeroValue(s[..|s| - 1]);
    }
  }

  /** A number below 100, written with two digits: exactly two digits whose
      value is the number. */
  lemma TwoDigits(n: nat)
    requires n < 100
    ensures |PadStart2(NatToString(n))| == 2
    ensures IsNumeral(PadStart2(NatToString(n)))
    ensures DigitsValue(PadStart2(NatToString(n))) == n
  {
    var s := NatToString(n);
    NatToStringValue(n);
    if n >= 10 {
      assert NatToString(n / 10) == [DigitChar(n / 10)];
    } else {
      assert PadStart2(s) == "0" + s;
      LeadingZeroValue(s);
    }
  }
}

=== FILE: header.dfy ===
/** The header pattern of the paste parser: for a label, the regular
    expression `^\s*(\*\*|#{1,3}\s*)?LABEL(\*\*)?\s*:?\s*$` with the `i` flag,
    where LABEL is the label with every metacharacter escaped, i.e. matched
    literally. A regular expression matches when SOME way of cutting the line
    into the pattern's pieces exists, so each piece below is a predicate on a
    position of the line and the alternatives are existentials. */
module HeaderMatch {
  import opened Text

  /** `t[i..j]` is whitespace (`\s*` matched there). */
  predicate WsRun(t: string, i: int, j: int)
    requires 0 <= i <= j <= |t|
  {
    forall k :: i <= k < j ==> IsWs(t[k])
  }

  /** `t[i..j]` is made of `#` characters. */
  predicate Hashes(t: string, i: int, j: int)
    requires 0 <= i <= j <= |t|
  {
    forall k :: i <= k < j ==> t[k] == '#'
  }

  /** `\s*:?\s*$` matches `t[i..]`. */
  predicate TailAt(t: string, i: int)
    requires 0 <= i <= |t|
  {
    WsRun(t, i, |t|)
    || exists k :: i <= k < |t| && t[k] == ':' && WsRun(t, i, k) && WsRun(t, k + 1, |t|)
  }

  /** `(\*\*)?\s*:?\s*$` matches `t[i..]`. */
  predicate CloseAt(t: string, i: int)
    requires 0 <= i <= |t|
  {
    TailAt(t, i) || (i + 2 <= |t| && t[i] == '*' && t[i + 1] == '*' && TailAt(t, i + 2))
  }

  /** The label, compared case-insensitively, starts at `i` and the rest of
      the pattern matches after it. */
  predicate LabelAt(t: string, i: int, header: string)
    requires 0 <= i <= |t|
  {
    i + |header| <= |t|
    && (forall k :: 0 <= k < |header| ==> Lower(t[i + k]) == Lower(header[k]))
    && CloseAt(t, i + |header|)
  }

  /** `(\*\*|#{1,3}\s*)?LABEL(\*\*)?\s*:?\s*$` matches `t[i..]`. */
  predicate OpenAt(t: string, i: int, header: string)
    requires 0 <= i <= |t|
  {
    LabelAt(t, i, header)
    || (i + 2 <= |t| && t[i] == '*' && t[i + 1] == '*' && LabelAt(t, i + 2, header))
    || exists m, j :: i + 1 <= m <= i + 3 && m <= j <= |t| && Hashes(t, i, m) && WsRun(t, m, j) && LabelAt(t, j, header)
  }

  /** `createHeaderPattern(header).test(t)`: `t` is a header line for the
      label `header`. */
  predicate IsHeaderFor(t: string, header: string) {
    exists i :: 0 <= i <= |t| && WsRun(t, 0, i) && OpenAt(t, i, header)
  }

  /** The characters the pattern allows around the label. */
  predicate IsDecoration(c: char) {
    IsWs(c) || c == '*' || c == '#' || c == ':'
  }

  /** `t` holds the label (up to case) at `i`, and every other character of `t`
      is decoration. */
  ghost predicate LabelWithDecoration(t: string, header: string, i: int) {
    0 <= i && i + |header| <= |t|
    && (forall k :: 0 <= k < |header| ==> Lower(t[i + k]) == Lower(header[k]))
    && (forall k :: 0 <= k < i ==> IsDecoration(t[k]))
    && (forall k :: i + |header| <= k < |t| ==> IsDecoration(t[k]))
  }

  lemma TailIsDecoration(t: string, i: int)
    requires 0 <= i <= |t| && TailAt(t, i)
    ensures forall k :: i <= k < |t| ==> IsDecoration(t[k])
  {
    if !WsRun(t, i, |t|) {
      var c :| i <= c < |t| && t[c] == ':' && WsRun(t, i, c) && WsRun(t, c + 1, |t|);
    }
  }

  lemma CloseIsDecoration(t: string, i: int)
    requires 0 <= i <= |t| && CloseAt(t, i)
    ensures forall k :: i <= k < |t| ==> IsDecoration(t[k])
  {
    if TailAt(t, i) {
      TailIsDecoration(t, i);
    } else {
      TailIsDecoration(t, i + 2);
    }
  }

  /** Where the label starts when the opening decoration starts at `i`. */
  lemma OpeningIsDecoration(t: string, i: int, header: string) returns (p: int)
    requires 0 <= i <= |t| && OpenAt(t, i, header)
    ensures i <= p <= |t| && LabelAt(t, p, header)
    ensures forall k :: i <= k < p ==> IsDecoration(t[k])
  {
    if LabelAt(t, i, header) {
      p := i;
    } else if i + 2 <= |t| && t[i] == '*' && t[i + 1] == '*' && LabelAt(t, i + 2, header) {
      p := i + 2;
    } else {
      var m, j :| i + 1 <= m <= i + 3 && m <= j <= |t| && Hashes(t, i, m) && WsRun(t, m, j) && LabelAt(t, j, header);
      p := j;
    }
  }

  /** Soundness of the pattern: a header line is its label, up to case, with
      nothing around it but whitespace, `*`, `#` and `:`. So a label that is
      part of a longer sentence never makes that line a header. */
  lemma HeaderIsDecoratedLabel(t: string, header: string)
    requires IsHeaderFor(t, header)
    ensures exists i :: LabelWithDecoration(t, header, i)
  {
    var i :| 0 <= i <= |t| && WsRun(t, 0, i) && OpenAt(t, i, header);
    var p := OpeningIsDecoration(t, i, header);
    CloseIsDecoration(t, p + |header|);
    assert LabelWithDecoration(t, header, p);
  }

  /** The opening decorations the pattern accepts: none, `**`, or one to
      three `#` followed by whitespace. */
  datatype Opening = Plain | Bold | Heading(level: nat, gap: string)

  /** What the pattern accepts after the label: an optional `**`, then
      whitespace, an optional colon, and whitespace again. */
  datatype Ending = Ending(closeBold: bool, before: string, colon: bool, after: string)

  /** A way of writing a label as a header line, leading whitespace
      included. */
  datatype Decoration = Decoration(lead: string, open: Opening, end: Ending)

  predicate ValidOpening(o: Opening) {
    o.Heading? ==> 1 <= o.level <= 3 && AllWs(o.gap)
  }

  predicate ValidEnding(e: Ending) {
    AllWs(e.before) && AllWs(e.after)
  }

  predicate ValidDecoration(d: Decoration) {
    AllWs(d.lead) && ValidOpening(d.open) && ValidEnding(d.end)
  }

  function OpenText(o: Opening): string {
    match o
      case Plain => ""
      case Bold => "**"
      case Heading(level, gap) => seq(level, _ => '#') + gap
  }

  function EndText(e: Ending): string {
    (if e.closeBold then "**" else "") + (e.before + ((if e.colon then ":" else "") + e.after))
  }

  /** The line made of a label as written and a decoration around it. */
  function Decorate(written: string, d: Decoration): string {
    d.lead + (OpenText(d.open) + (written + EndText(d.end)))
  }

  lemma Regroup(x: string, y: string, z: string)
    ensures x + y + z == x + (y + z)
  {
  }

  /** `\s*:?\s*$` accepts whitespace, an optional colon and whitespace. */
  lemma TailOfParts(x: string, before: string, colon: bool, after: string)
    requires AllWs(before) && AllWs(after)
    ensures TailAt(x + (before + ((if colon then ":" else "") + after)), |x|)
  {
    var t := x + (before + ((if colon then ":" else "") + after));
    var c := |x| + |before|;
    forall k | |x| <= k < c ensures IsWs(t[k]) {
      assert t[k] == before[k - |x|];
    }
    if colon {
      assert t[c] == ':';
      forall k | c + 1 <= k < |t| ensures IsWs(t[k]) {
        assert t[k] == after[k - c - 1];
      }
      assert WsRun(t, |x|, c) && WsRun(t, c + 1, |t|);
    } else {
      forall k | c <= k < |t| ensures IsWs(t[k]) {
        assert t[k] == after[k - c];
      }
      assert WsRun(t, |x|, |t|);
    }
  }

  /** `(\*\*)?\s*:?\s*$` accepts every ending. */
  lemma CloseOfEnding(x: string, e: Ending)
    requires ValidEnding(e)
    ensures CloseAt(x + EndText(e), |x|)
  {
    var rest := e.before + ((if e.colon then ":" else "") + e.after);
    if e.closeBold {
      Regroup(x, "**", rest);
      TailOfParts(x + "**", e.before, e.colon, e.after);
      var t := x + EndText(e);
      assert t[|x|] == '*' && t[|x| + 1] == '*';
    } else {
      assert EndText(e) == rest;
      TailOfParts(x, e.before, e.colon, e.after);
    }
  }

  /** The label in any ASCII case, followed by an ending. */
  lemma LabelOfWritten(x: string, written: string, h: string, e: Ending)
    requires FoldEq(written, h) && ValidEnding(e)
    ensures LabelAt(x + (written + EndText(e)), |x|, h)
  {
    Regroup(x, written, EndText(e));
    CloseOfEnding(x + written, e);
    var t := x + (written + EndText(e));
    forall k | 0 <= k < |h| ensures Lower(t[|x| + k]) == Lower(h[k]) {
      assert t[|x| + k] == written[k];
    }
  }

  /** Every opening is accepted before the label. */
  lemma OpenOfOpening(x: string, o: Opening, rest: string, h: string)
    requires ValidOpening(o)
    requires LabelAt(x + OpenText(o) + rest, |x| + |OpenText(o)|, h)
    ensures OpenAt(x + (OpenText(o) + rest), |x|, h)
  {
    Regroup(x, OpenText(o), rest);
    var t := x + (OpenText(o) + rest);
    match o {
      case Plain =>
        assert LabelAt(t, |x|, h);
      case Bold =>
        assert t[|x|] == '*' && t[|x| + 1] == '*';
      case Heading(level, gap) =>
        var m := |x| + level;
        var j := m + |gap|;
        forall k | |x| <= k < m ensures t[k] == '#' {
          assert t[k] == OpenText(o)[k - |x|];
        }
        forall k | m <= k < j ensures IsWs(t[k]) {
          assert t[k] == OpenText(o)[k - |x|];
        }
        assert Hashes(t, |x|, m) && WsRun(t, m, j) && LabelAt(t, j, h);
    }
  }

  /** Completeness of the pattern: the label itself, in any ASCII case, with
      any decoration (leading whitespace; `**` or one to three `#` and
      whitespace; `**`; whitespace around an optional colon) is a header
      line for that label. */
  lemma DecoratedLabelIsHeader(header: string, written: string, d: Decoration)
    requires FoldEq(written, header) && ValidDecoration(d)
    ensures IsHeaderFor(Decorate(written, d), header)
  {
    var rest := written + EndText(d.end);
    LabelOfWritten(d.lead + OpenText(d.open), written, header, d.end);
    OpenOfOpening(d.lead, d.open, rest, header);
    LeadOf(d.lead, OpenText(d.open) + rest, header);
  }

  /** Leading whitespace is accepted before the opening. */
  lemma LeadOf(x: string, rest: string, h: string)
    requires AllWs(x) && OpenAt(x + rest, |x|, h)
    ensures IsHeaderFor(x + rest, h)
  {
    var t := x + rest;
    forall k | 0 <= k < |x| ensures IsWs(t[k]) {
      assert t[k] == x[k];
    }
    assert WsRun(t, 0, |x|);
  }

  /** How the rest of a line after `c` splits when `\s*:?\s*$` matches it. */
  lemma TailParts(t: string, c: int) returns (before: string, colon: bool, after: string)
    requires 0 <= c <= |t| && TailAt(t, c)
    ensures AllWs(before) && AllWs(after)
    ensures t[c..] == before + ((if colon then ":" else "") + after)
  {
    if WsRun(t, c, |t|) {
      before, colon, after := t[c..], false, "";
      WsSlice(t, c, |t|);
      NoMore(t[c..]);
    } else {
      var k :| c <= k < |t| && t[k] == ':' && WsRun(t, c, k) && WsRun(t, k + 1, |t|);
      before, colon, after := t[c..k], true, t[k + 1..];
      WsSlice(t, c, k);
      WsSlice(t, k + 1, |t|);
      SliceThen(t, c, k);
      ColonThen(t, k);
    }
  }

  lemma NoMore(s: string)
    ensures s == s + ("" + "")
  {
  }

  lemma ColonThen(t: string, k: int)
    requires 0 <= k < |t| && t[k] == ':'
    ensures t[k..] == ":" + t[k + 1..]
  {
    assert t[k..] == [t[k]] + t[k + 1..];
  }

  lemma CloseParts(t: string, e: int) returns (end: Ending)
    requires 0 <= e <= |t| && CloseAt(t, e)
    ensures ValidEnding(end) && t[e..] == EndText(end)
  {
    if TailAt(t, e) {
      var b, c, a := TailParts(t, e);
      end := Ending(false, b, c, a);
    } else {
      var b, c, a := TailParts(t, e + 2);
      end := Ending(true, b, c, a);
      assert t[e..] == t[e..e + 2] + t[e + 2..];
      assert t[e..e + 2] == "**";
    }
  }

  lemma LabelParts(t: string, p: int, h: string) returns (written: string, end: Ending)
    requires 0 <= p <= |t| && LabelAt(t, p, h)
    ensures FoldEq(written, h) && ValidEnding(end) && t[p..] == written + EndText(end)
  {
    written := t[p..p + |h|];
    end := CloseParts(t, p + |h|);
    assert t[p..] == t[p..p + |h|] + t[p + |h|..];
  }

  lemma OpenParts(t: string, i: int, h: string) returns (open: Opening, written: string, end: Ending)
    requires 0 <= i <= |t| && OpenAt(t, i, h)
    ensures ValidOpening(open) && FoldEq(written, h) && ValidEnding(end)
    ensures t[i..] == OpenText(open) + (written + EndText(end))
  {
    if LabelAt(t, i, h) {
      open := Plain;
      written, end := LabelParts(t, i, h);
    } else if i + 2 <= |t| && t[i] == '*' && t[i + 1] == '*' && LabelAt(t, i + 2, h) {
      open := Bold;
      written, end := LabelParts(t, i + 2, h);
      BoldSlice(t, i, written + EndText(end));
    } else {
      var m, j :| i + 1 <= m <= i + 3 && m <= j <= |t| && Hashes(t, i, m) && WsRun(t, m, j) && LabelAt(t, j, h);
      written, end := LabelParts(t, j, h);
      open := HeadingSlice(t, i, m, j, written + EndText(end));
    }
  }

  lemma BoldSlice(t: string, i: int, rest: string)
    requires 0 <= i && i + 2 <= |t| && t[i] == '*' && t[i + 1] == '*' && t[i + 2..] == rest
    ensures t[i..] == OpenText(Bold) + rest
  {
    assert t[i..] == t[i..i + 2] + t[i + 2..];
    assert t[i..i + 2] == "**";
  }

  lemma HeadingSlice(t: string, i: int, m: int, j: int, rest: string) returns (open: Opening)
    requires i + 1 <= m <= i + 3 && 0 <= i && m <= j <= |t| && Hashes(t, i, m) && WsRun(t, m, j)
    requires t[j..] == rest
    ensures ValidOpening(open) && t[i..] == OpenText(open) + rest
  {
    open := Heading(m - i, t[m..j]);
    HashesSlice(t, i, m);
    WsSlice(t, m, j);
    SliceThen(t, m, j);
    SliceThen(t, i, m);
    Regroup(t[i..m], t[m..j], t[j..]);
  }

  lemma SliceThen(t: string, i: int, j: int)
    requires 0 <= i <= j <= |t|
    ensures t[i..] == t[i..j] + t[j..]
  {
  }

  lemma HashesSlice(t: string, i: int, m: int)
    requires 0 <= i <= m <= |t| && Hashes(t, i, m)
    ensures t[i..m] == seq(m - i, _ => '#')
  {
  }

  lemma WsSlice(t: string, m: int, j: int)
    requires 0 <= m <= j <= |t| && WsRun(t, m, j)
    ensures AllWs(t[m..j])
  {
    assert forall n :: 0 <= n < j - m ==> t[m..j][n] == t[m + n];
  }

  /** Exact soundness of the pattern: every header line is the label, up to
      ASCII case, written with one of the decorations `DecoratedLabelIsHeader`
      accepts. Together the two lemmas say which lines are headers. */
  lemma HeaderIsDecorated(t: string, header: string) returns (written: string, d: Decoration)
    requires IsHeaderFor(t, header)
    ensures FoldEq(written, header) && ValidDecoration(d) && Decorate(written, d) == t
  {
    var i :| 0 <= i <= |t| && WsRun(t, 0, i) && OpenAt(t, i, header);
    var open, end;
    open, written, end := OpenParts(t, i, header);
    d := Decoration(t[..i], open, end);
    LeadThen(t, i, OpenText(open) + (written + EndText(end)));
  }

  lemma LeadThen(t: string, i: int, rest: string)
    requires 0 <= i <= |t| && WsRun(t, 0, i) && t[i..] == rest
    ensures AllWs(t[..i]) && t == t[..i] + rest
  {
    assert forall n :: 0 <= n < i ==> t[..i][n] == t[n];
    assert t == t[..i] + t[i..];
  }

  /** Case does not matter: labels equal up to ASCII case recognise the same
      lines. */
  lemma HeaderIgnoresCase(t: string, l1: string, l2: string)
    requires FoldEq(l1, l2)
    ensures IsHeaderFor(t, l1) <==> IsHeaderFor(t, l2)
  {
    forall i | 0 <= i <= |t| ensures LabelAt(t, i, l1) <==> LabelAt(t, i, l2) {
    }
    forall i | 0 <= i <= |t| ensures OpenAt(t, i, l1) <==> OpenAt(t, i, l2) {
      if i + 2 <= |t| {
        assert LabelAt(t, i + 2, l1) <==> LabelAt(t, i + 2, l2);
      }
    }
  }
}

=== FILE: imagecard.dfy ===
/** The shareable standup image: the three sections in the fixed order 1, 2,
    3, each shown when it is switched on and has something to show. */
module ImageCard {
  import opened Common
  import opened Text

  /** What a section shows: its bullet list, or its text trimmed. */
  datatype Display = BulletList(items: seq<string>) | Paragraph(text: string)

  /** `getContentToDisplay`: bullets only in super mode and only when there
      are some; otherwise the trimmed text. */
  function ContentToDisplay(superMode: bool, text: string, bullets: seq<string>): (r: Display)
    ensures r.BulletList? <==> superMode && |bullets| > 0
    ensures r.BulletList? ==> r.items == bullets
    ensures r.Paragraph? ==> IsTrimmed(r.text) && (r.text == "" <==> !HasContent(text))
    ensures r.Paragraph? ==> r.text == Trim(text)
  {
    if superMode && |bullets| > 0 then BulletList(bullets) else Paragraph(Trim(text))
  }

  /** The `hasContent` test of a section. */
  predicate DisplayHasContent(d: Display) {
    match d
    case BulletList(items) => |items| > 0
    case Paragraph(text) => |text| > 0
  }

  const PlainClass := "font-semibold text-gray-800"
  const BoldClass := "font-bold text-gray-900"
  const H2Class := "text-2xl font-bold text-gray-900 mb-2"
  const H3Class := "text-xl font-bold text-gray-900 mb-1"

  /** `getHeaderClassName`: the style of a header format; unknown formats
      look like `none`. */
  function HeaderClass(format: string): (r: string)
    ensures r in {PlainClass, BoldClass, H2Class, H3Class}
    ensures r == BoldClass <==> format == "bold"
  {
    if format == "bold" then BoldClass
    else if format == "##" then H2Class
    else if format == "###" then H3Class
    else PlainClass
  }

  /** The inline font size of a header, in pixels. */
  function HeaderFontPx(format: string): (r: nat)
    ensures r in {18, 20, 22}
    ensures r != 18 <==> format == "##" || format == "###"
  {
    if format == "##" then 22 else if format == "###" then 20 else 18
  }

  /** The two style choices agree: the larger sizes go with exactly the
      heading classes, and every other format gets the base size. */
  lemma FontMatchesClass(format: string)
    ensures HeaderFontPx(format) == 22 <==> HeaderClass(format) == H2Class
    ensures HeaderFontPx(format) == 20 <==> HeaderClass(format) == H3Class
    ensures HeaderFontPx(format) == 18 <==> HeaderClass(format) in {PlainClass, BoldClass}
  {
    assert |H2Class| != |H3Class| && |H2Class| != |PlainClass| && |H2Class| != |BoldClass|;
    assert |H3Class| != |PlainClass| && |H3Class| != |BoldClass|;
  }

  /** Everything the card is drawn from. */
  datatype CardInput = CardInput(
    headers: Triple<string>,
    formats: Triple<string>,
    visible: Triple<bool>,
    texts: Triple<string>,
    bullets: Triple<seq<string>>,
    superMode: bool)

  /** One drawn section. */
  datatype CardSection = CardSection(id: SectionId, header: string, className: string, fontPx: nat, content: Display)

  /** Section `id` appears on the card: it is switched on, and it has bullets
      to show in super mode or text that is not blank. */
  predicate Shown(input: CardInput, id: SectionId) {
    input.visible.Get(id)
    && ((input.superMode && |input.bullets.Get(id)| > 0) || HasContent(input.texts.Get(id)))
  }

  function DrawSection(input: CardInput, id: SectionId): seq<CardSection> {
    var content := ContentToDisplay(input.superMode, input.texts.Get(id), input.bullets.Get(id));
    var format := input.formats.Get(id);
    if input.visible.Get(id) && DisplayHasContent(content) then
      [CardSection(id, input.headers.Get(id), HeaderClass(format), HeaderFontPx(format), content)]
    else []
  }

  /** A drawn section shows its own section's header label, styled by its
      own section's header format, and its own content. */
  predicate Faithful(input: CardInput, s: CardSection) {
    s.header == input.headers.Get(s.id)
    && s.className == HeaderClass(input.formats.Get(s.id))
    && s.fontPx == HeaderFontPx(input.formats.Get(s.id))
    && s.content == ContentToDisplay(input.superMode, input.texts.Get(s.id), input.bullets.Get(s.id))
  }

  lemma DrawSectionFacts(input: CardInput, id: SectionId)
    ensures |DrawSection(input, id)| <= 1
    ensures |DrawSection(input, id)| == 1 <==> Shown(input, id)
    ensures forall x :: x in DrawSection(input, id) ==> x.id == id && Faithful(input, x)
  {
  }

  /** The sections of the three parts, each part holding at most its own
      section, in order. */
  lemma Concat3(a: seq<CardSection>, b: seq<CardSection>, c: seq<CardSection>)
    requires |a| <= 1 && |b| <= 1 && |c| <= 1
    requires forall x :: x in a ==> x.id == Section1
    requires forall x :: x in b ==> x.id == Section2
    requires forall x :: x in c ==> x.id == Section3
    ensures forall i, j :: 0 <= i < j < |a + b + c| ==> (a + b + c)[i].id.Rank() < (a + b + c)[j].id.Rank()
    ensures forall i :: 0 <= i < |a + b + c| ==> (a + b + c)[i] in a || (a + b + c)[i] in b || (a + b + c)[i] in c
    ensures |a| == 1 ==> (a + b + c)[0].id == Section1
    ensures |b| == 1 ==> (a + b + c)[|a|].id == Section2
    ensures |c| == 1 ==> (a + b + c)[|a| + |b|].id == Section3
    ensures (exists i :: 0 <= i < |a + b + c| && (a + b + c)[i].id == Section1) <==> |a| == 1
    ensures (exists i :: 0 <= i < |a + b + c| && (a + b + c)[i].id == Section2) <==> |b| == 1
    ensures (exists i :: 0 <= i < |a + b + c| && (a + b + c)[i].id == Section3) <==> |c| == 1
  {
    var r := a + b + c;
    forall i | 0 <= i < |r|
      ensures r[i].id.Rank() == (if i < |a| then 1 else if i < |a| + |b| then 2 else 3)
      ensures r[i] in a || r[i] in b || r[i] in c
    {
      if i < |a| { assert r[i] == a[i]; }
      else if i < |a| + |b| { assert r[i] == b[i - |a|]; }
      else { assert r[i] == c[i - |a| - |b|]; }
    }
  }

  /** The three parts, put together in order, have the card's properties. */
  lemma CardParts(input: CardInput, r: seq<CardSection>)
    requires r == DrawSection(input, Section1) + DrawSection(input, Section2) + DrawSection(input, Section3)
    ensures forall i, j :: 0 <= i < j < |r| ==> r[i].id.Rank() < r[j].id.Rank()
    ensures forall id :: Shown(input, id) <==> exists i :: 0 <= i < |r| && r[i].id == id
    ensures forall i :: 0 <= i < |r| ==> Faithful(input, r[i])
  {
    var a := DrawSection(input, Section1);
    var b := DrawSection(input, Section2);
    var c := DrawSection(input, Section3);
    DrawSectionFacts(input, Section1);
    DrawSectionFacts(input, Section2);
    DrawSectionFacts(input, Section3);
    Concat3(a, b, c);
    forall id ensures Shown(input, id) <==> exists i :: 0 <= i < |r| && r[i].id == id {
      match id
      case Section1 => assert Shown(input, id) <==> |a| == 1;
      case Section2 => assert Shown(input, id) <==> |b| == 1;
      case Section3 => assert Shown(input, id) <==> |c| == 1;
    }
  }

  /** The card's sections: in the fixed order 1, 2, 3 whatever order the
      settings hold, a section exactly when it is shown, each under its own
      header label and with its own content. */
  function Card(input: CardInput): (r: seq<CardSection>)
    ensures forall i, j :: 0 <= i < j < |r| ==> r[i].id.Rank() < r[j].id.Rank()
    ensures forall id :: Shown(input, id) <==> exists i :: 0 <= i < |r| && r[i].id == id
    ensures forall i :: 0 <= i < |r| ==> Faithful(input, r[i])
  {
    var r := DrawSection(input, Section1) + DrawSection(input, Section2) + DrawSection(input, Section3);
    CardParts(input, r);
    r
  }
}

=== FILE: paste.dfy ===
/** The pasted-update parser of the paste dialog (`parseUpdate`): a line
    scanner with two states, no section open and a section open, that turns
    raw text into one text-or-bullets slot per configured section label. */
module PasteParser {
  import opened Common
  import opened Text
  import opened HeaderMatch

  /** One section of a parsed update: a paragraph of text or a bullet list. */
  datatype Slot = Slot(text: string, bullets: seq<string>)

  const EmptySlot := Slot("", [])

  /** Text and bullets are never both present, and both are stored trimmed;
      a stored bullet is never empty. */
  predicate ValidSlot(s: Slot) {
    && (|s.bullets| > 0 ==> s.text == "")
    && (s.text != "" ==> s.bullets == [])
    && IsTrimmed(s.text)
    && forall k :: 0 <= k < |s.bullets| ==> s.bullets[k] != "" && IsTrimmed(s.bullets[k])
  }

  predicate ValidParsed(p: Triple<Slot>) {
    ValidSlot(p.first) && ValidSlot(p.second) && ValidSlot(p.third)
  }

  /** The section a trimmed line opens: the first of the three labels whose
      header pattern matches it. */
  function HeaderOf(labels: Triple<string>, t: string): (r: Option<SectionId>)
    ensures r.Some? ==> IsHeaderFor(t, labels.Get(r.value))
    ensures r.Some? ==> forall s: SectionId :: s.Rank() < r.value.Rank() ==> !IsHeaderFor(t, labels.Get(s))
    ensures r.None? <==> forall s :: !IsHeaderFor(t, labels.Get(s))
  {
    if IsHeaderFor(t, labels.first) then Some(Section1)
    else if IsHeaderFor(t, labels.second) then Some(Section2)
    else if IsHeaderFor(t, labels.third) then Some(Section3)
    else None
  }

  /** The bullet marker `• ` (U+2022 and a space). */
  const DotMarker: string := ['\U{2022}', ' ']

  /** The trimmed line starts with `- `, `* ` or `• `. */
  predicate IsBulletLine(line: string) {
    var t := Trim(line);
    StartsWith(t, "- ") || StartsWith(t, "* ") || StartsWith(t, DotMarker)
  }

  lemma MarkerLeavesContent(t: string)
    requires IsTrimmed(t) && |t| >= 2 && IsWs(t[1])
    ensures HasContent(t[2..])
  {
    assert |t| >= 3;
    assert t[2..][|t| - 3] == t[|t| - 1];
  }

  /** What follows the marker of a trimmed line is leading whitespace and
      then its trimmed rest: nothing is cut at the end. */
  lemma MarkerRest(t: string)
    requires IsTrimmed(t) && |t| >= 2 && HasContent(t[2..])
    ensures exists a :: AllWs(a) && t[2..] == a + Trim(t[2..])
  {
    var a, b := TrimDecompose(t[2..]);
    assert b == [];
    assert t[2..] == a + Trim(t[2..]);
  }

  /** The bullet a bullet line stores: the two marker characters removed from
      the trimmed line and the rest trimmed again. */
  function BulletText(line: string): (r: string)
    requires IsBulletLine(line)
    ensures r != "" && IsTrimmed(r)
    ensures exists a :: AllWs(a) && Trim(line)[2..] == a + r
  {
    var t := Trim(line);
    MarkerLeavesContent(t);
    MarkerRest(t);
    Trim(t[2..])
  }

  /** The bullet a line contributes: its bullet text for a bullet line,
      nothing for any other line. */
  function BulletOf(line: string): (r: seq<string>)
    ensures |r| <= 1 && (|r| == 1 <==> IsBulletLine(line))
    ensures forall k :: 0 <= k < |r| ==> r[k] != "" && IsTrimmed(r[k])
  {
    if IsBulletLine(line) then [BulletText(line)] else []
  }

  lemma CleanConcat(a: seq<string>, b: seq<string>)
    requires forall k :: 0 <= k < |a| ==> a[k] != "" && IsTrimmed(a[k])
    requires forall k :: 0 <= k < |b| ==> b[k] != "" && IsTrimmed(b[k])
    ensures forall k :: 0 <= k < |a + b| ==> (a + b)[k] != "" && IsTrimmed((a + b)[k])
  {
    forall k | 0 <= k < |a + b| ensures (a + b)[k] != "" && IsTrimmed((a + b)[k]) {
      if k >= |a| { assert (a + b)[k] == b[k - |a|]; }
    }
  }

  lemma NoBulletLineCons(block: seq<string>)
    requires block != []
    ensures (forall k :: 0 <= k < |block| ==> !IsBulletLine(block[k]))
        <==> !IsBulletLine(block[0]) && forall k :: 0 <= k < |block[1..]| ==> !IsBulletLine(block[1..][k])
  {
    assert forall k :: 1 <= k < |block| ==> block[k] == block[1..][k - 1];
  }

  /** The bullets of a block: one per bullet line, in order; the other lines
      are dropped. */
  function Bullets(block: seq<string>): (r: seq<string>)
    ensures |r| <= |block|
    ensures forall k :: 0 <= k < |r| ==> r[k] != "" && IsTrimmed(r[k])
    ensures r == [] <==> forall k :: 0 <= k < |block| ==> !IsBulletLine(block[k])
  {
    if block == [] then []
    else
      var head := BulletOf(block[0]);
      var rest := Bullets(block[1..]);
      NoBulletLineCons(block);
      CleanConcat(head, rest);
      head + rest
  }

  /** A single line yields its bullet text when it is a bullet line and
      nothing otherwise; with `BulletsAppend`, a block's bullets are its
      bullet lines' texts, in line order. */
  lemma BulletsOfLine(line: string)
    ensures IsBulletLine(line) ==> Bullets([line]) == [BulletText(line)]
    ensures !IsBulletLine(line) ==> Bullets([line]) == []
  {
    assert [line][1..] == [];
  }

  /** Bullets are collected line by line: the bullets of two consecutive
      pieces of a block are the bullets of each, in order. */
  lemma {:induction false} BulletsAppend(a: seq<string>, b: seq<string>)
    ensures Bullets(a + b) == Bullets(a) + Bullets(b)
    decreases |a|
  {
    if a != [] {
      var ab := a + b;
      assert ab[0] == a[0] && ab[1..] == a[1..] + b;
      assert Bullets(ab) == BulletOf(a[0]) + Bullets(a[1..] + b);
      BulletsAppend(a[1..], b);
      assert Bullets(a) == BulletOf(a[0]) + Bullets(a[1..]);
    } else {
      assert a + b == b;
    }
  }

  /** `processSection`: a block with at least one bullet line becomes its
      bullet list with empty text; any other block becomes its lines joined
      with newlines and trimmed, with no bullets. */
  function Flush(block: seq<string>): (r: Slot)
    ensures ValidSlot(r)
    ensures r.bullets != [] <==> exists k :: 0 <= k < |block| && IsBulletLine(block[k])
    ensures r.bullets == [] ==> r.text == Trim(Join(block, "\n"))
    ensures r.bullets != [] ==> r.text == "" && r.bullets == Bullets(block)
  {
    var bullets := Bullets(block);
    if |bullets| > 0 then Slot("", bullets)
    else Slot(Trim(Join(block, "\n")), [])
  }

  /** The scanner state: the open section (none before the first header),
      the lines collected for it, and the slots filled so far. */
  datatype Scan = Scan(open: Option<SectionId>, block: seq<string>, result: Triple<Slot>)

  const Start := Scan(None, [], Same(EmptySlot))

  /** The slots after the open block is stored: only a non-empty block of an
      open section is flushed, so a header followed by no lines leaves its
      slot as it was. */
  function Close(st: Scan): Triple<Slot> {
    if st.open.Some? && |st.block| > 0 then st.result.Set(st.open.value, Flush(st.block)) else st.result
  }

  /** One iteration of the scanning loop. */
  function Step(labels: Triple<string>, st: Scan, line: string): (r: Scan)
    ensures st.open.None? && Trim(line) == "" ==> r == st
    ensures (st.open.Some? || Trim(line) != "") && HeaderOf(labels, Trim(line)).Some? ==>
      r.open == HeaderOf(labels, Trim(line)) && r.block == [] && r.result == Close(st)
    ensures HeaderOf(labels, Trim(line)).None? ==> r.open == st.open && r.result == st.result
    ensures HeaderOf(labels, Trim(line)).None? && st.open.Some? ==> r.block == st.block + [line]
  {
    var t := Trim(line);
    if st.open.None? && t == "" then st
    else match HeaderOf(labels, t)
      case Some(s) => Scan(Some(s), [], Close(st))
      case None => if st.open.Some? then Scan(st.open, st.block + [line], st.result) else st
  }

  function Run(labels: Triple<string>, st: Scan, lines: seq<string>): Scan
    decreases |lines|
  {
    if lines == [] then st else Run(labels, Step(labels, st, lines[0]), lines[1..])
  }

  /** The loop over the lines followed by the flush of the last section. */
  function ParseLines(labels: Triple<string>, lines: seq<string>): Triple<Slot> {
    Close(Run(labels, Start, lines))
  }

  /** `text.replace(/\r\n/g, '\n')`. */
  function NormalizeNewlines(s: string): (r: string)
    ensures |r| <= |s|
    ensures '\r' !in s ==> r == s
    decreases |s|
  {
    if |s| >= 2 && s[0] == '\r' && s[1] == '\n' then "\n" + NormalizeNewlines(s[2..])
    else if s == [] then []
    else [s[0]] + NormalizeNewlines(s[1..])
  }

  /** `parseUpdate(text)`: every slot of the result is valid. */
  function Parse(labels: Triple<string>, text: string): (r: Triple<Slot>)
    ensures ValidParsed(r)
  {
    var lines := SplitOn(NormalizeNewlines(text), "\n");
    RunKeepsInvariant(labels, Start, lines);
    ParseLines(labels, lines)
  }

  /** `handlePaste`: blank input is ignored, anything else is parsed. */
  function HandlePaste(labels: Triple<string>, text: string): (r: Option<Triple<Slot>>)
    ensures r.None? <==> !HasContent(text)
    ensures r.Some? ==> ValidParsed(r.value)
  {
    if Trim(text) == "" then None else Some(Parse(labels, text))
  }

  // ---------------------------------------------------------------------
  // The scanning invariant

  /** Nothing is collected before a section opens, no collected line is a
      header line, and every slot filled so far is valid. */
  ghost predicate Inv(labels: Triple<string>, st: Scan) {
    && (st.open.None? ==> st.block == [])
    && ValidParsed(st.result)
    && forall k :: 0 <= k < |st.block| ==> HeaderOf(labels, Trim(st.block[k])).None?
  }

  lemma CloseKeepsValid(labels: Triple<string>, st: Scan)
    requires Inv(labels, st)
    ensures ValidParsed(Close(st))
  {
    if st.open.Some? && |st.block| > 0 {
      var r := st.result.Set(st.open.value, Flush(st.block));
      assert forall s :: ValidSlot(r.Get(s));
      assert r.first == r.Get(Section1) && r.second == r.Get(Section2) && r.third == r.Get(Section3);
    }
  }

  lemma {:induction false} RunKeepsInvariant(labels: Triple<string>, st: Scan, lines: seq<string>)
    requires Inv(labels, st)
    ensures Inv(labels, Run(labels, st, lines))
    ensures ValidParsed(Close(Run(labels, st, lines)))
    decreases |lines|
  {
    if lines == [] {
      CloseKeepsValid(labels, st);
    } else {
      var next := Step(labels, st, lines[0]);
      CloseKeepsValid(labels, st);
      assert Inv(labels, next);
      RunKeepsInvariant(labels, next, lines[1..]);
    }
  }

  lemma {:induction false} RunAppend(labels: Triple<string>, st: Scan, a: seq<string>, b: seq<string>)
    ensures Run(labels, st, a + b) == Run(labels, Run(labels, st, a), b)
    decreases |a|
  {
    if a == [] {
      assert a + b == b;
    } else {
      assert (a + b)[0] == a[0];
      assert (a + b)[1..] == a[1..] + b;
      RunAppend(labels, Step(labels, st, a[0]), a[1..], b);
    }
  }

  // ---------------------------------------------------------------------
  // Preamble

  /** A line the scanner drops while no section is open: blank, or not a
      header line for any label. */
  predicate Ignorable(labels: Triple<string>, line: string) {
    Trim(line) == "" || HeaderOf(labels, Trim(line)).None?
  }

  lemma {:induction false} PreambleRun(labels: Triple<string>, pre: seq<string>)
    requires forall k :: 0 <= k < |pre| ==> Ignorable(labels, pre[k])
    ensures Run(labels, Start, pre) == Start
    decreases |pre|
  {
    if pre != [] {
      assert Step(labels, Start, pre[0]) == Start;
      PreambleRun(labels, pre[1..]);
    }
  }

  /** Lines before the first header line never reach any slot. */
  lemma PreambleDropped(labels: Triple<string>, pre: seq<string>, rest: seq<string>)
    requires forall k :: 0 <= k < |pre| ==> Ignorable(labels, pre[k])
    ensures ParseLines(labels, pre + rest) == ParseLines(labels, rest)
  {
    RunAppend(labels, Start, pre, rest);
    PreambleRun(labels, pre);
  }

  /** Text without any header line yields three empty slots. */
  lemma NoHeaderNoContent(labels: Triple<string>, lines: seq<string>)
    requires forall k :: 0 <= k < |lines| ==> Ignorable(labels, lines[k])
    ensures ParseLines(labels, lines) == Same(EmptySlot)
  {
    PreambleRun(labels, lines);
  }

  // ---------------------------------------------------------------------
  // Documents: a preamble, then blocks each headed by a header line

  /** A header line followed by the lines of its block. */
  datatype Block = Block(header: string, body: seq<string>)

  /** A block starts with a non-blank header line and holds no other header line. */
  ghost predicate GoodBlock(labels: Triple<string>, b: Block) {
    && Trim(b.header) != ""
    && HeaderOf(labels, Trim(b.header)).Some?
    && forall k :: 0 <= k < |b.body| ==> HeaderOf(labels, Trim(b.body[k])).None?
  }

  /** Every block of the document is a good block. */
  ghost predicate WellFormedDoc(labels: Triple<string>, doc: seq<Block>) {
    forall b :: 0 <= b < |doc| ==> GoodBlock(labels, doc[b])
  }

  /** The lines of a document, in order. */
  function Flatten(doc: seq<Block>): seq<string> {
    if doc == [] then [] else Flatten(doc[..|doc| - 1]) + [doc[|doc| - 1].header] + doc[|doc| - 1].body
  }

  /** What a section's slot should hold after a document: the flushed body of
      the last block headed for that section whose body is not empty, or the
      empty slot when there is none. */
  function LastBlockFor(labels: Triple<string>, doc: seq<Block>, s: SectionId): Slot {
    if doc == [] then EmptySlot
    else
      var b := doc[|doc| - 1];
      if HeaderOf(labels, Trim(b.header)) == Some(s) && b.body != [] then Flush(b.body)
      else LastBlockFor(labels, doc[..|doc| - 1], s)
  }

  function Expected(labels: Triple<string>, doc: seq<Block>): Triple<Slot> {
    Triple(LastBlockFor(labels, doc, Section1), LastBlockFor(labels, doc, Section2), LastBlockFor(labels, doc, Section3))
  }

  lemma {:induction false} BodyRun(labels: Triple<string>, s: SectionId, block: seq<string>, res: Triple<Slot>, body: seq<string>)
    requires forall k :: 0 <= k < |body| ==> HeaderOf(labels, Trim(body[k])).None?
    ensures Run(labels, Scan(Some(s), block, res), body) == Scan(Some(s), block + body, res)
    decreases |body|
  {
    if body == [] {
      assert block + body == block;
    } else {
      var st := Scan(Some(s), block, res);
      assert Run(labels, st, body) == Run(labels, Step(labels, st, body[0]), body[1..]);
      BodyRun(labels, s, block + [body[0]], res, body[1..]);
      ShiftFirst(block, body);
    }
  }

  /** Closing the last block of a document gives the expected slots. */
  lemma CloseLastBlock(labels: Triple<string>, doc: seq<Block>)
    requires doc != [] && HeaderOf(labels, Trim(doc[|doc| - 1].header)).Some?
    ensures Close(Scan(HeaderOf(labels, Trim(doc[|doc| - 1].header)), doc[|doc| - 1].body, Expected(labels, doc[..|doc| - 1])))
         == Expected(labels, doc)
  {
  }

  /** One block of a document: its header line opens the section (closing
      whatever was open) and its body lines are collected for it. */
  lemma BlockRun(labels: Triple<string>, st: Scan, b: Block)
    requires GoodBlock(labels, b)
    ensures Run(labels, st, [b.header] + b.body) == Scan(HeaderOf(labels, Trim(b.header)), b.body, Close(st))
  {
    var sec := HeaderOf(labels, Trim(b.header));
    RunAppend(labels, st, [b.header], b.body);
    assert Run(labels, st, [b.header]) == Scan(sec, [], Close(st));
    BodyRun(labels, sec.value, [], Close(st), b.body);
    assert [] + b.body == b.body;
  }

  lemma WellFormedPrefix(labels: Triple<string>, doc: seq<Block>)
    requires doc != [] && WellFormedDoc(labels, doc)
    ensures WellFormedDoc(labels, doc[..|doc| - 1])
  {
    var d := doc[..|doc| - 1];
    forall i | 0 <= i < |d| ensures d[i] == doc[i] { }
  }

  lemma FlattenSnoc(d: seq<Block>, b: Block)
    ensures Flatten(d + [b]) == Flatten(d) + ([b.header] + b.body)
  {
    var doc := d + [b];
    assert doc[..|doc| - 1] == d && doc[|doc| - 1] == b;
  }

  /** Appending one block to the lines already scanned into `st0`. */
  lemma AppendBlockRun(labels: Triple<string>, d: seq<Block>, b: Block, st0: Scan)
    requires Run(labels, Start, Flatten(d)) == st0
    requires GoodBlock(labels, b)
    ensures Run(labels, Start, Flatten(d + [b])) == Scan(HeaderOf(labels, Trim(b.header)), b.body, Close(st0))
  {
    FlattenSnoc(d, b);
    RunAppend(labels, Start, Flatten(d), [b.header] + b.body);
    BlockRun(labels, st0, b);
  }

  /** One more block keeps the parse equal to the expected slots. */
  lemma ParseBlocksStep(labels: Triple<string>, d: seq<Block>, b: Block)
    requires ParseLines(labels, Flatten(d)) == Expected(labels, d)
    requires GoodBlock(labels, b)
    ensures ParseLines(labels, Flatten(d + [b])) == Expected(labels, d + [b])
  {
    var doc := d + [b];
    assert doc[..|doc| - 1] == d && doc[|doc| - 1] == b;
    AppendBlockRun(labels, d, b, Run(labels, Start, Flatten(d)));
    CloseLastBlock(labels, doc);
  }

  /** Parsing a well-formed document (no preamble) gives the expected slots. */
  lemma {:induction false} ParseBlocks(labels: Triple<string>, doc: seq<Block>)
    requires WellFormedDoc(labels, doc)
    ensures ParseLines(labels, Flatten(doc)) == Expected(labels, doc)
    decreases |doc|
  {
    if doc != [] {
      var d := doc[..|doc| - 1];
      var b := doc[|doc| - 1];
      WellFormedPrefix(labels, doc);
      ParseBlocks(labels, d);
      ParseBlocksStep(labels, d, b);
      SplitLast(doc);
    }
  }

  /** The parser's result, section by section: after any preamble, each slot
      holds the flushed body of the last non-empty block headed for it, and
      a header line is never part of any block. */
  lemma ParseDocument(labels: Triple<string>, pre: seq<string>, doc: seq<Block>)
    requires forall k :: 0 <= k < |pre| ==> Ignorable(labels, pre[k])
    requires WellFormedDoc(labels, doc)
    ensures ParseLines(labels, pre + Flatten(doc)) == Expected(labels, doc)
  {
    PreambleDropped(labels, pre, Flatten(doc));
    ParseBlocks(labels, doc);
  }

  // ---------------------------------------------------------------------
  // Line endings

  /** The text with every `\n` written as `\r\n`. */
  function WithCrlf(s: string): string {
    if s == [] then [] else (if s[0] == '\n' then "\r\n" else [s[0]]) + WithCrlf(s[1..])
  }

  lemma {:induction false} NormalizeUndoesCrlf(s: string)
    ensures NormalizeNewlines(WithCrlf(s)) == s
    decreases |s|
  {
    if s != [] {
      var rest := WithCrlf(s[1..]);
      NormalizeUndoesCrlf(s[1..]);
      if s[0] == '\n' {
        assert WithCrlf(s) == "\r\n" + rest;
        assert WithCrlf(s)[2..] == rest;
      } else {
        assert WithCrlf(s) == [s[0]] + rest;
        assert rest != [] ==> rest[0] != '\n' by {
          if rest != [] { assert s[1..] != []; }
        }
        assert WithCrlf(s)[1..] == rest;
      }
    }
  }

  lemma {:induction false} NormalizeKeepsLf(s: string)
    requires !Contains(s, "\r\n")
    ensures NormalizeNewlines(s) == s
    decreases |s|
  {
    if s != [] {
      if |s| >= 2 {
        assert !OccursAt(s, "\r\n", 0);
        assert s[..2] == [s[0], s[1]];
      }
      ContainsTail(s, "\r\n");
      NormalizeKeepsLf(s[1..]);
      assert [s[0]] + s[1..] == s;
    }
  }

  /** Windows line endings parse like Unix ones: writing every line break of
      a text as `\r\n` does not change what it parses to. */
  lemma CrlfParsesSame(labels: Triple<string>, s: string)
    requires !Contains(s, "\r\n")
    ensures Parse(labels, WithCrlf(s)) == Parse(labels, s)
  {
    NormalizeUndoesCrlf(s);
    NormalizeKeepsLf(s);
  }

  // ---------------------------------------------------------------------
  // Blank input

  lemma {:induction false} NormalizeKeepsBlank(s: string)
    requires AllWs(s)
    ensures AllWs(NormalizeNewlines(s))
    decreases |s|
  {
    if |s| >= 2 && s[0] == '\r' && s[1] == '\n' {
      NormalizeKeepsBlank(s[2..]);
      AllWsConcat("\n", NormalizeNewlines(s[2..]));
    } else if s != [] {
      NormalizeKeepsBlank(s[1..]);
      AllWsConcat([s[0]], NormalizeNewlines(s[1..]));
    }
  }

  lemma {:induction false} JoinedBlankPartsBlank(xs: seq<string>, sep: string)
    requires AllWs(Join(xs, sep))
    ensures forall k :: 0 <= k < |xs| ==> AllWs(xs[k])
    decreases |xs|
  {
    if |xs| > 1 {
      AllWsConcat(xs[0] + sep, Join(xs[1..], sep));
      AllWsConcat(xs[0], sep);
      JoinedBlankPartsBlank(xs[1..], sep);
      assert forall k :: 1 <= k < |xs| ==> xs[k] == xs[1..][k - 1];
    }
  }

  /** The blank-input guard changes nothing about the slots: blank text would
      have parsed to three empty slots anyway. */
  lemma BlankParsesEmpty(labels: Triple<string>, text: string)
    requires !HasContent(text)
    ensures Parse(labels, text) == Same(EmptySlot)
  {
    var n := NormalizeNewlines(text);
    NormalizeKeepsBlank(text);
    var lines := SplitOn(n, "\n");
    JoinedBlankPartsBlank(lines, "\n");
    forall k | 0 <= k < |lines| ensures Ignorable(labels, lines[k]) {
      assert !HasContent(lines[k]);
    }
    NoHeaderNoContent(labels, lines);
  }
}

=== FILE: record.dfy ===
/** The stored form of a calendar standup: the three answers, each under its
    prompt line, separated by blank lines. Saving writes this text; selecting
    a day or cancelling an edit reads it back by splitting at blank lines and
    removing each prompt line. */
module Record {
  import opened Common
  import opened Text

  const CurrentPrompt: string := "What are you working on?"
  const YesterdayPrompt: string := "What did you work on yesterday?"
  const BlockersPrompt: string := "What are your blockers?"

  /** The three answers of the calendar's edit form. */
  datatype Fields = Fields(current: string, yesterday: string, blockers: string)

  const NoFields := Fields("", "", "")

  /** The text saved for a day (`combinedUpdate`). */
  function Serialize(f: Fields): string {
    CurrentPrompt + "\n" + f.current + "\n\n" + YesterdayPrompt + "\n" + f.yesterday + "\n\n" + BlockersPrompt + "\n" + f.blockers
  }

  /** Reading a saved text back: split at blank lines, take the first three
      chunks and remove the first occurrence of each prompt line. With fewer
      than three chunks the source reads a missing chunk and fails; that is
      `None` here. */
  function Deserialize(text: string): (r: Option<Fields>)
    ensures !Contains(text, "\n\n") ==> r.None?
    ensures r.None? <==> |SplitOn(text, "\n\n")| < 3
  {
    var chunks := SplitOn(text, "\n\n");
    if !Contains(text, "\n\n") then
      SplitOnNone(text, "\n\n");
      None
    else if |chunks| < 3 then None
    else Some(Fields(
      ReplaceFirst(chunks[0], CurrentPrompt + "\n", ""),
      ReplaceFirst(chunks[1], YesterdayPrompt + "\n", ""),
      ReplaceFirst(chunks[2], BlockersPrompt + "\n", "")))
  }

  /** No two consecutive newlines. */
  predicate NoBlankLine(s: string) {
    forall i :: 0 <= i < |s| - 1 ==> !(s[i] == '\n' && s[i + 1] == '\n')
  }

  /** An answer that survives as a middle chunk: not empty, no blank line in
      it and no newline at either end. */
  predicate InnerAnswer(a: string) {
    |a| > 0 && a[0] != '\n' && a[|a| - 1] != '\n' && NoBlankLine(a)
  }

  /** An answer that survives as the last chunk: no blank line in it and no
      newline at its start. */
  predicate LastAnswer(c: string) {
    (|c| > 0 ==> c[0] != '\n') && NoBlankLine(c)
  }

  /** Round trip: answers of that shape are read back exactly as saved. */
  predicate Recoverable(f: Fields) {
    InnerAnswer(f.current) && InnerAnswer(f.yesterday) && LastAnswer(f.blockers)
  }

  lemma NoBlankLineHasNoSeparator(s: string)
    requires NoBlankLine(s)
    ensures !Contains(s, "\n\n")
  {
    forall i | 0 <= i <= |s| ensures !OccursAt(s, "\n\n", i) {
      if i + 2 <= |s| {
        assert s[i..i + 2] == [s[i], s[i + 1]];
      }
    }
  }

  lemma SeparatorAtBlankLine(s: string)
    requires !NoBlankLine(s)
    ensures Contains(s, "\n\n")
  {
    var i :| 0 <= i < |s| - 1 && s[i] == '\n' && s[i + 1] == '\n';
    assert s[i..i + 2] == "\n\n";
    assert OccursAt(s, "\n\n", i);
  }

  /** A chunk with no blank line and no trailing newline is cut off exactly
      at the separator that follows it. */
  lemma {:induction false} ChunkThenSeparator(x: string, y: string)
    requires |x| > 0 && x[|x| - 1] != '\n' && NoBlankLine(x)
    ensures SplitOn(x + "\n\n" + y, "\n\n") == [x] + SplitOn(y, "\n\n")
  {
    forall i | 0 <= i < |x| ensures !OccursAt(x + "\n\n", "\n\n", i) {
      var w := x + "\n\n";
      assert w[i..i + 2] == [w[i], w[i + 1]];
      assert w[i] == x[i];
      if i + 1 < |x| {
        assert w[i + 1] == x[i + 1];
      }
    }
    SplitOnFirst(x, "\n\n", y);
  }

  /** A prompt line followed by an answer has no blank line when the prompt
      has no newline and the answer does not start with one. */
  lemma {:induction false} PromptThenAnswer(p: string, a: string)
    requires |p| > 0 && (forall i :: 0 <= i < |p| ==> p[i] != '\n')
    requires (|a| > 0 ==> a[0] != '\n') && NoBlankLine(a)
    ensures NoBlankLine(p + "\n" + a)
    ensures |p + "\n" + a| > 0
    ensures |a| > 0 ==> (p + "\n" + a)[|p + "\n" + a| - 1] == a[|a| - 1]
  {
    var s := p + "\n" + a;
    forall i | 0 <= i < |s| - 1 ensures !(s[i] == '\n' && s[i + 1] == '\n') {
      if i < |p| {
        assert s[i] == p[i];
      } else if i == |p| {
        assert s[i + 1] == a[0];
      } else {
        assert s[i] == a[i - |p| - 1] && s[i + 1] == a[i - |p|];
      }
    }
  }

  /** Removing the prompt line from a chunk that starts with it leaves the answer. */
  lemma StripPrompt(p: string, a: string)
    ensures ReplaceFirst(p + "\n" + a, p + "\n", "") == a
  {
    var s := p + "\n" + a;
    assert s[..|p + "\n"|] == p + "\n";
    assert s[|p + "\n"|..] == a;
  }

  lemma PromptsHaveNoNewline()
    ensures forall i :: 0 <= i < |CurrentPrompt| ==> CurrentPrompt[i] != '\n'
    ensures forall i :: 0 <= i < |YesterdayPrompt| ==> YesterdayPrompt[i] != '\n'
    ensures forall i :: 0 <= i < |BlockersPrompt| ==> BlockersPrompt[i] != '\n'
  {
  }

  /** A separator sits right after the first chunk. */
  lemma SeparatorAfter(x: string, y: string)
    ensures Contains(x + "\n\n" + y, "\n\n")
  {
    var text := x + "\n\n" + y;
    assert text[|x|..|x| + 2] == "\n\n";
    assert OccursAt(text, "\n\n", |x|);
  }

  /** Three chunks of that shape, joined by blank lines, split back into
      those three chunks. */
  lemma SplitThreeChunks(x1: string, x2: string, x3: string)
    requires |x1| > 0 && x1[|x1| - 1] != '\n' && NoBlankLine(x1)
    requires |x2| > 0 && x2[|x2| - 1] != '\n' && NoBlankLine(x2)
    requires NoBlankLine(x3)
    ensures SplitOn(x1 + "\n\n" + x2 + "\n\n" + x3, "\n\n") == [x1, x2, x3]
    ensures Contains(x1 + "\n\n" + x2 + "\n\n" + x3, "\n\n")
  {
    var rest := x2 + "\n\n" + x3;
    Nest3(x1, "\n\n", x2, x3);
    ChunkThenSeparator(x1, rest);
    ChunkThenSeparator(x2, x3);
    NoBlankLineHasNoSeparator(x3);
    SplitOnNone(x3, "\n\n");
    Cons3(x1, x2, x3, []);
    SeparatorAfter(x1, rest);
  }

  /** Saving then reading back gives the same answers, for answers without
      blank lines, not starting with a newline, and (for the first two) not
      empty and not ending with a newline. */
  lemma RoundTrip(f: Fields)
    requires Recoverable(f)
    ensures Deserialize(Serialize(f)) == Some(f)
  {
    var x1 := CurrentPrompt + "\n" + f.current;
    var x2 := YesterdayPrompt + "\n" + f.yesterday;
    var x3 := BlockersPrompt + "\n" + f.blockers;
    PromptsHaveNoNewline();
    PromptThenAnswer(CurrentPrompt, f.current);
    PromptThenAnswer(YesterdayPrompt, f.yesterday);
    PromptThenAnswer(BlockersPrompt, f.blockers);
    assert Serialize(f) == x1 + "\n\n" + x2 + "\n\n" + x3;
    SplitThreeChunks(x1, x2, x3);
    StripPrompt(CurrentPrompt, f.current);
    StripPrompt(YesterdayPrompt, f.yesterday);
    StripPrompt(BlockersPrompt, f.blockers);
  }

  /** Four pieces joined by blank lines, the first three of that shape:
      the first three chunks are those three pieces. */
  lemma SplitLeadingChunks(x1: string, x2: string, x3: string, extra: string)
    requires |x1| > 0 && x1[|x1| - 1] != '\n' && NoBlankLine(x1)
    requires |x2| > 0 && x2[|x2| - 1] != '\n' && NoBlankLine(x2)
    requires |x3| > 0 && x3[|x3| - 1] != '\n' && NoBlankLine(x3)
    ensures Contains(x1 + "\n\n" + x2 + "\n\n" + x3 + "\n\n" + extra, "\n\n")
    ensures SplitOn(x1 + "\n\n" + x2 + "\n\n" + x3 + "\n\n" + extra, "\n\n")
         == [x1, x2, x3] + SplitOn(extra, "\n\n")
  {
    var r3 := x3 + "\n\n" + extra;
    var r2 := x2 + "\n\n" + r3;
    Nest4(x1, "\n\n", x2, x3, extra);
    ChunkThenSeparator(x1, r2);
    ChunkThenSeparator(x2, r3);
    ChunkThenSeparator(x3, extra);
    Cons3(x1, x2, x3, SplitOn(extra, "\n\n"));
    SeparatorAfter(x1, r2);
  }

  lemma ExtraLayout(p1: string, a1: string, p2: string, a2: string, p3: string, a3: string, extra: string)
    ensures p1 + "\n" + a1 + "\n\n" + p2 + "\n" + a2 + "\n\n" + p3 + "\n" + a3 + "\n\n" + extra
         == (p1 + "\n" + a1) + "\n\n" + (p2 + "\n" + a2) + "\n\n" + (p3 + "\n" + a3) + "\n\n" + extra
  {
  }

  /** Chunks after the third are ignored: a record followed by more
      blank-line separated text reads back as the record, when the last
      answer, too, is not empty and does not end with a newline. */
  lemma ExtraChunksIgnored(f: Fields, extra: string)
    requires InnerAnswer(f.current) && InnerAnswer(f.yesterday) && InnerAnswer(f.blockers)
    ensures Deserialize(Serialize(f) + "\n\n" + extra) == Some(f)
  {
    var x1 := CurrentPrompt + "\n" + f.current;
    var x2 := YesterdayPrompt + "\n" + f.yesterday;
    var x3 := BlockersPrompt + "\n" + f.blockers;
    PromptsHaveNoNewline();
    PromptThenAnswer(CurrentPrompt, f.current);
    PromptThenAnswer(YesterdayPrompt, f.yesterday);
    PromptThenAnswer(BlockersPrompt, f.blockers);
    ExtraLayout(CurrentPrompt, f.current, YesterdayPrompt, f.yesterday, BlockersPrompt, f.blockers, extra);
    SplitLeadingChunks(x1, x2, x3, extra);
    StripPrompt(CurrentPrompt, f.current);
    StripPrompt(YesterdayPrompt, f.yesterday);
    StripPrompt(BlockersPrompt, f.blockers);
  }

  /** A chunk that starts with a stray newline keeps it: the prompt line
      after it is still removed. */
  lemma StripPromptAfterNewline(p: string, a: string)
    requires |p| > 0 && p[0] != '\n'
    ensures ReplaceFirst("\n" + p + "\n" + a, p + "\n", "") == "\n" + a
  {
    assert "\n" + p + "\n" + a == ['\n'] + (p + "\n" + a);
    ReplaceFirstSkips('\n', p + "\n" + a, p + "\n", "");
    StripPrompt(p, a);
  }

  lemma NewlineBeforePrompt(t: string)
    requires NoBlankLine(t) && |t| > 0 && t[0] != '\n'
    ensures NoBlankLine("\n" + t)
  {
    var x := "\n" + t;
    forall i | 0 <= i < |x| - 1 ensures !(x[i] == '\n' && x[i + 1] == '\n') {
      if i == 0 { assert x[1] == t[0]; } else { assert x[i] == t[i - 1] && x[i + 1] == t[i]; }
    }
  }

  /** With an empty first answer, the first separator is followed by a
      newline that starts the second chunk. */
  lemma EmptyFirstLayout(p1: string, p2: string, p3: string, y: string, b: string)
    ensures p1 + "\n" + "" + "\n\n" + p2 + "\n" + y + "\n\n" + p3 + "\n" + b
         == p1 + "\n\n" + ("\n" + (p2 + "\n" + y)) + "\n\n" + (p3 + "\n" + b)
  {
  }

  /** A prompt line: not empty and without a newline. */
  predicate PromptLine(p: string) {
    |p| > 0 && forall i :: 0 <= i < |p| ==> p[i] != '\n'
  }

  /** The chunks of a record with an empty first answer, for any prompts. */
  lemma EmptyFirstChunks(p1: string, p2: string, p3: string, y: string, b: string)
    requires PromptLine(p1) && PromptLine(p2) && PromptLine(p3)
    requires InnerAnswer(y) && LastAnswer(b)
    ensures Contains(p1 + "\n" + "" + "\n\n" + p2 + "\n" + y + "\n\n" + p3 + "\n" + b, "\n\n")
    ensures SplitOn(p1 + "\n" + "" + "\n\n" + p2 + "\n" + y + "\n\n" + p3 + "\n" + b, "\n\n")
         == [p1, "\n" + p2 + "\n" + y, p3 + "\n" + b]
  {
    var t := p2 + "\n" + y;
    var x2 := "\n" + t;
    var x3 := p3 + "\n" + b;
    PromptThenAnswer(p2, y);
    PromptThenAnswer(p3, b);
    NewlineBeforePrompt(t);
    assert x2[|x2| - 1] == t[|t| - 1];
    assert NoBlankLine(p1);
    EmptyFirstLayout(p1, p2, p3, y, b);
    SplitThreeChunks(p1, x2, x3);
    assert x2 == "\n" + p2 + "\n" + y;
  }

  /** The chunks of a record whose first answer is empty. */
  lemma EmptyCurrentChunks(f: Fields)
    requires f.current == "" && InnerAnswer(f.yesterday) && LastAnswer(f.blockers)
    ensures Contains(Serialize(f), "\n\n")
    ensures SplitOn(Serialize(f), "\n\n")
         == [CurrentPrompt, "\n" + YesterdayPrompt + "\n" + f.yesterday, BlockersPrompt + "\n" + f.blockers]
  {
    PromptsHaveNoNewline();
    EmptyFirstChunks(CurrentPrompt, YesterdayPrompt, BlockersPrompt, f.yesterday, f.blockers);
  }

  /** An empty first answer is not read back: the first chunk is then the
      bare prompt, which stays as the answer, and the second answer gains a
      leading newline. */
  lemma EmptyCurrentNotRecovered(f: Fields)
    requires f.current == "" && InnerAnswer(f.yesterday) && LastAnswer(f.blockers)
    ensures Deserialize(Serialize(f)) == Some(Fields(CurrentPrompt, "\n" + f.yesterday, f.blockers))
    ensures Deserialize(Serialize(f)) != Some(f)
  {
    EmptyCurrentChunks(f);
    StripPromptAfterNewline(YesterdayPrompt, f.yesterday);
    StripPrompt(BlockersPrompt, f.blockers);
    assert ReplaceFirst(CurrentPrompt, CurrentPrompt + "\n", "") == CurrentPrompt;
    assert |CurrentPrompt| > 0;
  }

  // ---------------------------------------------------------------------
  // Only recoverable answers are read back

  /** The first chunk of a text with a blank line at `p` ends at or before
      `p`, and a separator follows it. */
  lemma FirstChunkBefore(t: string, p: nat)
    requires OccursAt(t, "\n\n", p)
    ensures |SplitOn(t, "\n\n")| > 1
    ensures |SplitOn(t, "\n\n")[0]| <= p
    ensures StartsWith(t, SplitOn(t, "\n\n")[0] + "\n\n")
  {
    var r := SplitOn(t, "\n\n");
    SplitOnLeftmost(t, "\n\n");
    assert Contains(t, "\n\n");
    assert |r| > 1;
    var w := r[0] + "\n\n";
    assert t == w + Join(r[1..], "\n\n");
    assert t[..|w|] == w;
    assert !OccursAt(w, "\n\n", p) ==> p >= |r[0]| by {
      if p < |r[0]| {
        assert w[p..p + 2] == t[p..p + 2];
      }
    }
  }

  /** A piece of a prompt line and its answer, cut before the end, does not
      read back as the answer; when it is cut right after the prompt, the
      answer is empty or starts with a newline. */
  lemma CutShort(pr: string, a: string, piece: string)
    requires PromptLine(pr)
    requires StartsWith(pr + "\n" + a, piece) && |pr| <= |piece| < |pr + "\n" + a|
    requires |piece| == |pr| && a != [] ==> a[0] == '\n'
    ensures ReplaceFirst(piece, pr + "\n", "") != a
  {
    var w := pr + "\n" + a;
    if |piece| == |pr| {
      assert piece == w[..|pr|];
      assert w[..|pr|] == pr;
      assert !Contains(pr, pr + "\n");
      assert a == [] || pr[0] != a[0];
    } else {
      var rest := piece[|pr| + 1..];
      assert piece[..|pr| + 1] == w[..|pr| + 1];
      assert w[..|pr| + 1] == pr + "\n";
      assert piece == pr + "\n" + rest;
      StripPrompt(pr, rest);
      assert |rest| < |a|;
    }
  }

  /** The characters of a prompt line, its answer and what follows. */
  lemma CharOf(pr: string, a: string, s: string, i: nat)
    requires i < |pr| + 1 + |a| + |s|
    ensures (pr + "\n" + a + s)[i]
         == if i < |pr| then pr[i]
            else if i == |pr| then '\n'
            else if i < |pr| + 1 + |a| then a[i - |pr| - 1]
            else s[i - |pr| - 1 - |a|]
  {
  }

  /** Two newlines in a row are an occurrence of the separator. */
  lemma PairAt(t: string, p: nat)
    requires p + 1 < |t| && t[p] == '\n' && t[p + 1] == '\n'
    ensures OccursAt(t, "\n\n", p)
  {
    assert t[p..p + 2] == [t[p], t[p + 1]];
  }

  /** An answer that is no inner answer, followed by a separator, puts a
      blank line inside its chunk or right at its end. */
  lemma InnerBreak(pr: string, a: string, s: string) returns (p: nat)
    requires PromptLine(pr) && !InnerAnswer(a)
    requires |s| >= 2 && s[0] == '\n' && s[1] == '\n'
    ensures OccursAt(pr + "\n" + a + s, "\n\n", p) && p < |pr| + 1 + |a|
  {
    var k := |pr| + 1;
    if a == [] || a[0] == '\n' {
      p := |pr|;
    } else if a[|a| - 1] == '\n' {
      p := k + |a| - 1;
    } else {
      var i :| 0 <= i < |a| - 1 && a[i] == '\n' && a[i + 1] == '\n';
      p := k + i;
    }
    CharOf(pr, a, s, p);
    CharOf(pr, a, s, p + 1);
    PairAt(pr + "\n" + a + s, p);
  }

  /** A last answer of the wrong shape puts a blank line inside its chunk. */
  lemma LastBreak(pr: string, b: string, s: string) returns (p: nat)
    requires PromptLine(pr) && !LastAnswer(b)
    ensures OccursAt(pr + "\n" + b + s, "\n\n", p) && p < |pr| + 1 + |b|
  {
    if |b| > 0 && b[0] == '\n' {
      p := |pr|;
    } else {
      var i :| 0 <= i < |b| - 1 && b[i] == '\n' && b[i + 1] == '\n';
      p := |pr| + 1 + i;
    }
    CharOf(pr, b, s, p);
    CharOf(pr, b, s, p + 1);
    PairAt(pr + "\n" + b + s, p);
  }

  /** When the first blank line of a text that starts with a prompt line and
      an answer falls inside the answer or right after it, the first chunk
      does not read back as the answer. */
  lemma FirstChunkNotAnswer(pr: string, a: string, s: string, p: nat)
    requires PromptLine(pr)
    requires OccursAt(pr + "\n" + a + s, "\n\n", p) && p < |pr| + 1 + |a|
    ensures |SplitOn(pr + "\n" + a + s, "\n\n")| > 1
    ensures ReplaceFirst(SplitOn(pr + "\n" + a + s, "\n\n")[0], pr + "\n", "") != a
  {
    var t := pr + "\n" + a + s;
    var w := pr + "\n" + a;
    FirstChunkBefore(t, p);
    var piece := SplitOn(t, "\n\n")[0];
    assert t[..|w|] == w;
    assert piece == t[..|piece|];
    assert w[..|piece|] == t[..|piece|];
    assert forall i :: 0 <= i < |pr| ==> t[i] == pr[i] && t[i] != '\n';
    assert t[|piece|] == (piece + "\n\n")[|piece|];
    assert |pr| <= |piece|;
    if |piece| == |pr| && a != [] {
      assert t[|pr| + 1] == (piece + "\n\n")[|pr| + 1];
      assert t[|pr| + 1] == a[0];
    }
    CutShort(pr, a, piece);
  }

  /** The saved text, regrouped chunk by chunk. */
  lemma SerialLayout(p1: string, c: string, p2: string, y: string, p3: string, b: string)
    ensures p1 + "\n" + c + "\n\n" + p2 + "\n" + y + "\n\n" + p3 + "\n" + b
         == p1 + "\n" + c + ("\n\n" + (p2 + "\n" + y + ("\n\n" + (p3 + "\n" + b + ""))))
    ensures p1 + "\n" + c + ("\n\n" + (p2 + "\n" + y + ("\n\n" + (p3 + "\n" + b + ""))))
         == (p1 + "\n" + c) + "\n\n" + (p2 + "\n" + y + ("\n\n" + (p3 + "\n" + b + "")))
    ensures p2 + "\n" + y + ("\n\n" + (p3 + "\n" + b + ""))
         == (p2 + "\n" + y) + "\n\n" + (p3 + "\n" + b + "")
  {
  }

  /** For any prompt lines: when some answer breaks the conditions of
      `Recoverable`, the text has fewer than three chunks or the first such
      answer's chunk reads back as something else. */
  lemma ChunksOnlyIf(p1: string, c: string, p2: string, y: string, p3: string, b: string)
    requires PromptLine(p1) && PromptLine(p2) && PromptLine(p3)
    requires !(InnerAnswer(c) && InnerAnswer(y) && LastAnswer(b))
    ensures var ch := SplitOn(p1 + "\n" + c + "\n\n" + p2 + "\n" + y + "\n\n" + p3 + "\n" + b, "\n\n");
      |ch| >= 3 ==>
        ReplaceFirst(ch[0], p1 + "\n", "") != c ||
        ReplaceFirst(ch[1], p2 + "\n", "") != y ||
        ReplaceFirst(ch[2], p3 + "\n", "") != b
  {
    var t3 := p3 + "\n" + b + "";
    var t2 := p2 + "\n" + y + ("\n\n" + t3);
    SerialLayout(p1, c, p2, y, p3, b);
    if !InnerAnswer(c) {
      var p := InnerBreak(p1, c, "\n\n" + t2);
      FirstChunkNotAnswer(p1, c, "\n\n" + t2, p);
    } else {
      var x1 := p1 + "\n" + c;
      PromptThenAnswer(p1, c);
      ChunkThenSeparator(x1, t2);
      if !InnerAnswer(y) {
        var p := InnerBreak(p2, y, "\n\n" + t3);
        FirstChunkNotAnswer(p2, y, "\n\n" + t3, p);
      } else {
        var x2 := p2 + "\n" + y;
        PromptThenAnswer(p2, y);
        ChunkThenSeparator(x2, t3);
        var p := LastBreak(p3, b, "");
        FirstChunkNotAnswer(p3, b, "", p);
      }
    }
  }

  /** Only recoverable answers are read back. With `RoundTrip`, the saved
      answers come back exactly when they are recoverable. */
  lemma RoundTripOnlyIf(f: Fields)
    ensures Deserialize(Serialize(f)) == Some(f) ==> Recoverable(f)
  {
    if !Recoverable(f) {
      PromptsHaveNoNewline();
      ChunksOnlyIf(CurrentPrompt, f.current, YesterdayPrompt, f.yesterday, BlockersPrompt, f.blockers);
    }
  }
}

=== FILE: settings.dfy ===
/** The settings panel: section headers, default header format, super mode,
    which sections are shown and in what order, and the reset to defaults. */
module SettingsPanel {
  import opened Common
  import opened ArrayMove

  datatype Settings = Settings(
    headers: Triple<string>,
    format: string,
    superMode: bool,
    visible: Triple<bool>,
    order: seq<SectionId>)

  /** The header labels used when the deployment sets none. */
  const FallbackHeaders: Triple<string> :=
    Triple("What are you working on today?", "What did you work on yesterday?", "What are your blockers?")

  const DefaultOrder: seq<SectionId> := [Section1, Section2, Section3]

  /** `process.env.X || fallback`: a configured label unless it is missing or empty. */
  function ConfiguredOr(env: Option<string>, fallback: string): (r: string)
    ensures env.Some? && env.value != "" ==> r == env.value
    ensures env.None? || env.value == "" ==> r == fallback
  {
    if env.Some? && env.value != "" then env.value else fallback
  }

  /** The default header labels for the configured environment values. */
  function DefaultHeaders(env: Triple<Option<string>>): Triple<string> {
    Triple(ConfiguredOr(env.first, FallbackHeaders.first),
           ConfiguredOr(env.second, FallbackHeaders.second),
           ConfiguredOr(env.third, FallbackHeaders.third))
  }

  /** At least one section is shown. */
  predicate SomeVisible(v: Triple<bool>) {
    v.first || v.second || v.third
  }

  /** Section `id` is the only one shown: its switch is disabled. */
  predicate OnlyVisible(v: Triple<bool>, id: SectionId) {
    v.Get(id) && forall o :: o != id ==> !v.Get(o)
  }

  /** The show/hide switch of section `id`: hiding the last shown section is
      refused, anything else flips that section's flag only. */
  function ToggleSection(st: Settings, id: SectionId): (r: Settings)
    ensures OnlyVisible(st.visible, id) ==> r == st
    ensures !OnlyVisible(st.visible, id) ==>
      r.visible.Get(id) == !st.visible.Get(id)
      && (forall o :: o != id ==> r.visible.Get(o) == st.visible.Get(o))
      && r == st.(visible := r.visible)
  {
    if OnlyVisible(st.visible, id) then st else st.(visible := st.visible.Set(id, !st.visible.Get(id)))
  }

  /** The switches never hide every section. */
  lemma ToggleKeepsSomeVisible(st: Settings, id: SectionId)
    requires SomeVisible(st.visible)
    ensures SomeVisible(ToggleSection(st, id).visible)
  {
    var r := ToggleSection(st, id);
    if !OnlyVisible(st.visible, id) && st.visible.Get(id) {
      var o :| o != id && st.visible.Get(o);
      assert r.visible.Get(o);
    }
  }

  /** Flipping a switch twice gives back the settings it started from. */
  lemma ToggleTwice(st: Settings, id: SectionId)
    requires SomeVisible(st.visible)
    ensures ToggleSection(ToggleSection(st, id), id) == st
  {
    var r := ToggleSection(st, id);
    if !OnlyVisible(st.visible, id) {
      if st.visible.Get(id) {
        var o :| o != id && st.visible.Get(o);
        assert r.visible.Get(o);
      } else {
        assert exists o :: o != id && st.visible.Get(o) by {
          if st.visible.first { assert Section1 != id && st.visible.Get(Section1); }
          else if st.visible.second { assert Section2 != id && st.visible.Get(Section2); }
          else { assert Section3 != id && st.visible.Get(Section3); }
        }
      }
      assert r.visible.Set(id, !r.visible.Get(id)) == st.visible by {
        assert forall o :: r.visible.Set(id, !r.visible.Get(id)).Get(o) == st.visible.Get(o);
        TripleExt(r.visible.Set(id, !r.visible.Get(id)), st.visible);
      }
    }
  }

  lemma TripleExt<T>(a: Triple<T>, b: Triple<T>)
    requires forall o :: a.Get(o) == b.Get(o)
    ensures a == b
  {
    assert a.Get(Section1) == b.Get(Section1);
    assert a.Get(Section2) == b.Get(Section2);
    assert a.Get(Section3) == b.Get(Section3);
  }

  /** `findIndex(id => id === x)`: the first position of `x`, or -1. */
  function IndexOf(s: seq<SectionId>, x: SectionId): (r: int)
    ensures r == -1 <==> x !in s
    ensures r != -1 ==> 0 <= r < |s| && s[r] == x && forall k :: 0 <= k < r ==> s[k] != x
  {
    if s == [] then -1
    else if s[0] == x then 0
    else
      var k := IndexOf(s[1..], x);
      if k == -1 then -1 else k + 1
  }

  /** The three sections, each exactly once. */
  predicate IsSectionOrder(order: seq<SectionId>) {
    multiset(order) == multiset(DefaultOrder)
  }

  /** `handleOrderDragEnd` for a drag of section `active` dropped over
      section `over` (none when dropped outside the list). */
  function OrderDragEnd(st: Settings, active: SectionId, over: Option<SectionId>): (r: Settings)
    ensures multiset(r.order) == multiset(st.order) && |r.order| == |st.order|
    ensures r == st.(order := r.order)
    ensures over.None? || over == Some(active) ==> r == st
    ensures active !in st.order || (over.Some? && over.value !in st.order) ==> r == st
    ensures over.Some? && over != Some(active) && active in st.order && over.value in st.order ==>
      r.order[IndexOf(st.order, over.value)] == active
      && RemoveAt(r.order, IndexOf(st.order, over.value)) == RemoveAt(st.order, IndexOf(st.order, active))
  {
    if over.None? || over.value == active then st
    else
      var oldIndex := IndexOf(st.order, active);
      var newIndex := IndexOf(st.order, over.value);
      if oldIndex != -1 && newIndex != -1 then st.(order := Move(st.order, oldIndex, newIndex)) else st
  }

  /** Dragging keeps the order a permutation of the three sections. */
  lemma DragKeepsSectionOrder(st: Settings, active: SectionId, over: Option<SectionId>)
    requires IsSectionOrder(st.order)
    ensures IsSectionOrder(OrderDragEnd(st, active, over).order)
  {
  }

  /** `resetHeaders`: default headers, format `none`, super mode off, every
      section shown, the default order. */
  function Reset(st: Settings, env: Triple<Option<string>>): (r: Settings)
    ensures forall id :: r.headers.Get(id) == ConfiguredOr(env.Get(id), FallbackHeaders.Get(id))
    ensures forall id :: r.visible.Get(id)
    ensures r.format == "none" && !r.superMode && r.order == [Section1, Section2, Section3]
    ensures SomeVisible(r.visible) && IsSectionOrder(r.order)
  {
    Settings(DefaultHeaders(env), "none", false, Same(true), DefaultOrder)
  }

  /** `hasChanges` as written: the section order is not compared. */
  predicate HasChangesAsWritten(st: Settings, env: Triple<Option<string>>) {
    var d := DefaultHeaders(env);
    st.headers.first != d.first || st.headers.second != d.second || st.headers.third != d.third
    || st.format != "none" || st.superMode
    || !st.visible.first || !st.visible.second || !st.visible.third
  }

  /** A reordering alone is not a change for `hasChanges`, though reset
      would undo it: the reset button stays hidden. */
  lemma ReorderOnlyHidesReset(env: Triple<Option<string>>)
    ensures var st := Settings(DefaultHeaders(env), "none", false, Same(true), [Section2, Section1, Section3]);
      !HasChangesAsWritten(st, env) && Reset(st, env) != st
  {
    var st := Settings(DefaultHeaders(env), "none", false, Same(true), [Section2, Section1, Section3]);
    assert Reset(st, env).order[0] != st.order[0];
  }

  /** Whether the settings differ from the defaults, the order included: the
      reset button is shown exactly when reset would change something. */
  predicate HasChanges(st: Settings, env: Triple<Option<string>>) {
    HasChangesAsWritten(st, env) || st.order != DefaultOrder
  }

  lemma HasChangesIffResetChanges(st: Settings, env: Triple<Option<string>>)
    ensures HasChanges(st, env) <==> Reset(st, env) != st
  {
    if !HasChanges(st, env) {
      assert st.headers == DefaultHeaders(env);
      assert st.visible == Same(true);
    }
  }

  /** After a reset there is nothing left to reset. */
  lemma ResetIsIdempotent(st: Settings, env: Triple<Option<string>>)
    ensures Reset(Reset(st, env), env) == Reset(st, env)
    ensures !HasChanges(Reset(st, env), env) && !HasChangesAsWritten(Reset(st, env), env)
  {
    HasChangesIffResetChanges(Reset(st, env), env);
  }
}

=== FILE: text.dfy ===
/** The JavaScript string primitives the components rely on: `trim()`,
    `startsWith`, `split` by a string separator, `join`, `replace` with a
    string pattern, and the case folding of a case-insensitive regular
    expression. Strings are sequences of characters. */
module Text {

  /** The ECMAScript WhiteSpace and LineTerminator code points: exactly the
      characters `String.prototype.trim` removes and `\s` matches. */
  predicate IsWs(c: char) {
    var n := c as int;
    n == 0x09 || n == 0x0A || n == 0x0B || n == 0x0C || n == 0x0D || n == 0x20
    || n == 0xA0 || n == 0x1680 || (0x2000 <= n <= 0x200A)
    || n == 0x2028 || n == 0x2029 || n == 0x202F || n == 0x205F || n == 0x3000 || n == 0xFEFF
  }

  predicate AllWs(s: string) {
    forall i :: 0 <= i < |s| ==> IsWs(s[i])
  }

  lemma AllWsConcat(a: string, b: string)
    ensures AllWs(a + b) <==> AllWs(a) && AllWs(b)
  {
    if AllWs(a + b) {
      assert forall i :: 0 <= i < |a| ==> a[i] == (a + b)[i];
      assert forall i :: 0 <= i < |b| ==> b[i] == (a + b)[|a| + i];
    }
  }

  /** The string has a character that is not whitespace (`s.trim()` is truthy). */
  predicate HasContent(s: string) {
    exists i :: 0 <= i < |s| && !IsWs(s[i])
  }

  /** Neither end of the string is whitespace. */
  predicate IsTrimmed(s: string) {
    |s| == 0 || (!IsWs(s[0]) && !IsWs(s[|s| - 1]))
  }

  /** The index of the first non-whitespace character at or after `i`, or `|s|`. */
  function SkipWs(s: string, i: nat): (j: nat)
    requires i <= |s|
    ensures i <= j <= |s|
    ensures forall k :: i <= k < j ==> IsWs(s[k])
    ensures j < |s| ==> !IsWs(s[j])
    decreases |s| - i
  {
    if i < |s| && IsWs(s[i]) then SkipWs(s, i + 1) else i
  }

  /** The index just past the last non-whitespace character of `s[lo..j]`, or `lo`. */
  function SkipWsBack(s: string, lo: nat, j: nat): (i: nat)
    requires lo <= j <= |s|
    ensures lo <= i <= j
    ensures forall k :: i <= k < j ==> IsWs(s[k])
    ensures i > lo ==> !IsWs(s[i - 1])
    decreases j
  {
    if j > lo && IsWs(s[j - 1]) then SkipWsBack(s, lo, j - 1) else j
  }

  /** `s.trim()`: the infix of `s` left after removing whitespace at both ends. */
  function Trim(s: string): (r: string)
    ensures IsTrimmed(r)
    ensures |r| <= |s|
    ensures r == [] <==> !HasContent(s)
  {
    var lo := SkipWs(s, 0);
    var hi := SkipWsBack(s, lo, |s|);
    assert hi > lo ==> HasContent(s) by {
      if hi > lo { assert !IsWs(s[lo]); }
    }
    s[lo..hi]
  }

  /** What `Trim` removes is whitespace at both ends and nothing else. */
  lemma TrimDecompose(s: string) returns (a: string, b: string)
    ensures s == a + Trim(s) + b
    ensures AllWs(a) && AllWs(b)
  {
    var lo := SkipWs(s, 0);
    var hi := SkipWsBack(s, lo, |s|);
    a := s[..lo];
    b := s[hi..];
    assert s == a + s[lo..hi] + b;
  }

  /** Trimming a string that is whitespace, then a trimmed core, then
      whitespace, gives back the core: with `TrimDecompose`, this
      characterises `Trim` uniquely. */
  lemma TrimOfPadded(a: string, m: string, b: string)
    requires AllWs(a) && AllWs(b) && IsTrimmed(m)
    ensures Trim(a + m + b) == m
  {
    var s := a + m + b;
    var lo := SkipWs(s, 0);
    var hi := SkipWsBack(s, lo, |s|);
    if m == [] {
      assert !HasContent(s) by {
        forall k | 0 <= k < |s| ensures IsWs(s[k]) {
          if k < |a| { assert s[k] == a[k]; } else { assert s[k] == b[k - |a|]; }
        }
      }
    } else {
      assert s[|a|] == m[0];
      assert s[|a| + |m| - 1] == m[|m| - 1];
      assert lo == |a|;
      assert hi == |a| + |m|;
      assert s[lo..hi] == m;
    }
  }

  lemma TrimIdempotent(s: string)
    ensures Trim(Trim(s)) == Trim(s)
  {
    TrimOfPadded([], Trim(s), []);
    assert [] + Trim(s) + [] == Trim(s);
  }

  predicate StartsWith(s: string, prefix: string) {
    |prefix| <= |s| && s[..|prefix|] == prefix
  }

  /** The separator `sep` occurs in `s` at position `i`. */
  predicate OccursAt(s: string, sep: string, i: int) {
    0 <= i && i + |sep| <= |s| && s[i..i + |sep|] == sep
  }

  predicate Contains(s: string, sep: string) {
    exists i :: 0 <= i <= |s| && OccursAt(s, sep, i)
  }

  /** `xs.join(sep)`. */
  function Join(xs: seq<string>, sep: string): string {
    if |xs| == 0 then ""
    else if |xs| == 1 then xs[0]
    else xs[0] + sep + Join(xs[1..], sep)
  }

  /** `s.split(sep)` for a non-empty separator: the chunks between the
      occurrences of `sep` found scanning left to right; always at least one
      chunk, and joining them back with `sep` gives `s` again. */
  function SplitOn(s: string, sep: string): (r: seq<string>)
    requires |sep| > 0
    ensures |r| >= 1
    ensures Join(r, sep) == s
    decreases |s|
  {
    if |s| < |sep| then [s]
    else if s[..|sep|] == sep then
      var rest := SplitOn(s[|sep|..], sep);
      assert s == [] + sep + Join(rest, sep);
      [[]] + rest
    else
      var rest := SplitOn(s[1..], sep);
      var r := [[s[0]] + rest[0]] + rest[1..];
      assert Join(r, sep) == s by {
        if |rest| == 1 {
        } else {
          assert r[1..] == rest[1..];
          assert Join(rest, sep) == rest[0] + sep + Join(rest[1..], sep);
        }
      }
      r
  }

  /** Splitting at the first occurrence of the separator: when `sep` does not
      start anywhere inside `x` (also not straddling the end of `x`), the
      first chunk of `x + sep + y` is exactly `x`. */
  lemma {:induction false} SplitOnFirst(x: string, sep: string, y: string)
    requires |sep| > 0
    requires forall i :: 0 <= i < |x| ==> !OccursAt(x + sep, sep, i)
    ensures SplitOn(x + sep + y, sep) == [x] + SplitOn(y, sep)
    decreases |x|
  {
    var s := x + sep + y;
    if |x| == 0 {
      assert s[..|sep|] == sep;
      assert s[|sep|..] == y;
    } else {
      assert s[..|sep|] != sep by {
        assert !OccursAt(x + sep, sep, 0);
        assert (x + sep)[..|sep|] == s[..|sep|];
      }
      var x' := x[1..];
      forall i | 0 <= i < |x'| ensures !OccursAt(x' + sep, sep, i) {
        assert !OccursAt(x + sep, sep, i + 1);
        assert (x' + sep)[i..i + |sep|] == (x + sep)[i + 1..i + 1 + |sep|];
      }
      SplitOnFirst(x', sep, y);
      assert s[1..] == x' + sep + y;
      assert [s[0]] + x' == x;
    }
  }

  /** A string without any occurrence of the separator is one chunk. */
  lemma {:induction false} SplitOnNone(s: string, sep: string)
    requires |sep| > 0
    requires !Contains(s, sep)
    ensures SplitOn(s, sep) == [s]
    decreases |s|
  {
    if |s| >= |sep| {
      assert !OccursAt(s, sep, 0);
      assert !Contains(s[1..], sep) by {
        forall i | OccursAt(s[1..], sep, i) ensures false {
          assert s[1..][i..i + |sep|] == s[i + 1..i + 1 + |sep|];
          assert OccursAt(s, sep, i + 1);
        }
      }
      SplitOnNone(s[1..], sep);
      assert [s[0]] + s[1..] == s;
    }
  }

  /** No occurrence of `sep` starts inside `x`, not even one that runs into a
      separator written right after it: `x` ends at the leftmost occurrence. */
  predicate LeftCut(x: string, sep: string) {
    forall i :: 0 <= i < |x| ==> !OccursAt(x + sep, sep, i)
  }

  lemma LeftCutClean(x: string, sep: string)
    requires |sep| > 0 && LeftCut(x, sep)
    ensures !Contains(x, sep)
  {
    forall i | 0 <= i <= |x| && OccursAt(x, sep, i) ensures false {
      assert (x + sep)[i..i + |sep|] == x[i..i + |sep|];
      assert OccursAt(x + sep, sep, i);
    }
  }

  /** A character that does not start an occurrence keeps a chunk clean. */
  lemma ConsClean(c: char, x: string, sep: string)
    requires |sep| > 0 && !Contains(x, sep) && !OccursAt([c] + x, sep, 0)
    ensures !Contains([c] + x, sep)
  {
    var s := [c] + x;
    forall i | 0 < i <= |s| && OccursAt(s, sep, i) ensures false {
      assert s[i..i + |sep|] == x[i - 1..i - 1 + |sep|];
      assert OccursAt(x, sep, i - 1);
    }
  }

  /** A character that does not start an occurrence keeps a chunk a left cut. */
  lemma ConsLeftCut(c: char, x: string, sep: string)
    requires LeftCut(x, sep) && !OccursAt([c] + x + sep, sep, 0)
    ensures LeftCut([c] + x, sep)
  {
    forall i | 0 < i < |[c] + x| ensures !OccursAt([c] + x + sep, sep, i) {
      assert [c] + x + sep == [c] + (x + sep);
      assert !OccursAt(x + sep, sep, i - 1);
      ConsSlice(c, x + sep, i, i + |sep|);
    }
  }

  /** A slice after a first character is the slice one position earlier
      without it. */
  lemma ConsSlice(c: char, y: string, i: nat, j: nat)
    requires 1 <= i <= j <= |y| + 1
    ensures ([c] + y)[i..j] == y[i - 1..j - 1]
  {
    assert forall m :: 0 <= m < j - i ==> ([c] + y)[i..j][m] == y[i - 1..j - 1][m];
  }

  /** `split` cuts at the leftmost occurrences, scanning left to right: no
      chunk contains the separator, and every chunk but the last is a left
      cut. Together with `Join(SplitOn(s, sep), sep) == s` these facts
      determine the chunks. */
  lemma {:induction false} SplitOnLeftmost(s: string, sep: string)
    requires |sep| > 0
    ensures Join(SplitOn(s, sep), sep) == s
    ensures forall k :: 0 <= k < |SplitOn(s, sep)| ==> !Contains(SplitOn(s, sep)[k], sep)
    ensures forall k :: 0 <= k < |SplitOn(s, sep)| - 1 ==> LeftCut(SplitOn(s, sep)[k], sep)
    decreases |s|
  {
    var r := SplitOn(s, sep);
    if |s| < |sep| {
      assert r == [s];
    } else if s[..|sep|] == sep {
      var rest := SplitOn(s[|sep|..], sep);
      SplitOnLeftmost(s[|sep|..], sep);
      assert r == [[]] + rest;
      assert forall k :: 1 <= k < |r| ==> r[k] == rest[k - 1];
    } else {
      var rest := SplitOn(s[1..], sep);
      SplitOnLeftmost(s[1..], sep);
      assert r == [[s[0]] + rest[0]] + rest[1..];
      assert forall k :: 1 <= k < |r| ==> r[k] == rest[k];
      if |rest| == 1 {
        assert rest[0] == s[1..];
        assert [s[0]] + rest[0] == s;
        assert !OccursAt(s, sep, 0);
        ConsClean(s[0], rest[0], sep);
      } else {
        var w := [s[0]] + rest[0] + sep;
        assert Join(rest, sep) == rest[0] + sep + Join(rest[1..], sep);
        assert s == w + Join(rest[1..], sep);
        assert w[..|sep|] == s[..|sep|];
        ConsLeftCut(s[0], rest[0], sep);
        LeftCutClean([s[0]] + rest[0], sep);
      }
    }
  }

  /** Splitting by a single character undoes joining by it, provided no part
      contains that character. */
  lemma {:induction false} SplitJoinChar(xs: seq<string>, c: char)
    requires |xs| >= 1
    requires forall k :: 0 <= k < |xs| ==> c !in xs[k]
    ensures SplitOn(Join(xs, [c]), [c]) == xs
    decreases |xs|
  {
    if |xs| == 1 {
      forall i | 0 <= i <= |xs[0]| ensures !OccursAt(xs[0], [c], i) {
        if i + 1 <= |xs[0]| { assert xs[0][i..i + 1] == [xs[0][i]]; }
      }
      SplitOnNone(xs[0], [c]);
    } else {
      forall i | 0 <= i < |xs[0]| ensures !OccursAt(xs[0] + [c], [c], i) {
        assert (xs[0] + [c])[i..i + 1] == [xs[0][i]];
      }
      SplitOnFirst(xs[0], [c], Join(xs[1..], [c]));
      SplitJoinChar(xs[1..], c);
      assert xs == [xs[0]] + xs[1..];
    }
  }

  /** The first chunk of a split by one character: the longest prefix without
      that character, followed in `s` by the character when it is shorter. */
  lemma {:induction false} SplitFirstChunk(s: string, c: char)
    ensures StartsWith(s, SplitOn(s, [c])[0])
    ensures c !in SplitOn(s, [c])[0]
    ensures |SplitOn(s, [c])[0]| < |s| ==> s[|SplitOn(s, [c])[0]|] == c
    decreases |s|
  {
    if |s| >= 1 && s[..1] != [c] {
      var rest := SplitOn(s[1..], [c]);
      SplitFirstChunk(s[1..], c);
      assert SplitOn(s, [c])[0] == [s[0]] + rest[0];
      assert s[0] != c by { assert s[..1] == [s[0]]; }
    } else if |s| >= 1 {
      assert s[..1] == [s[0]];
    }
  }

  /** A one-character separator occurs exactly where the character does. */
  lemma ContainsChar(s: string, c: char)
    ensures Contains(s, [c]) <==> c in s
  {
    if c in s {
      var i :| 0 <= i < |s| && s[i] == c;
      assert s[i..i + 1] == [c];
      assert OccursAt(s, [c], i);
    }
    if Contains(s, [c]) {
      var i :| 0 <= i <= |s| && OccursAt(s, [c], i);
      assert s[i] == s[i..i + 1][0];
    }
  }

  /** Lexicographic order of strings by code unit, as `<=` compares strings. */
  predicate LexLe(a: string, b: string) {
    a == [] || (b != [] && (a[0] < b[0] || (a[0] == b[0] && LexLe(a[1..], b[1..]))))
  }

  /** A common prefix does not change the order. */
  lemma {:induction false} LexCommonPrefix(p: string, x: string, y: string)
    ensures LexLe(p + x, p + y) <==> LexLe(x, y)
    decreases |p|
  {
    if p != [] {
      assert (p + x)[1..] == p[1..] + x;
      assert (p + y)[1..] == p[1..] + y;
      LexCommonPrefix(p[1..], x, y);
    } else {
      assert p + x == x && p + y == y;
    }
  }

  /** `s.replace(pattern, replacement)` with a string pattern: only the first
      occurrence, scanning left to right, is replaced. */
  function ReplaceFirst(s: string, pattern: string, replacement: string): (r: string)
    requires |pattern| > 0
    ensures !Contains(s, pattern) ==> r == s
    decreases |s|
  {
    if |s| < |pattern| then s
    else if s[..|pattern|] == pattern then
      assert OccursAt(s, pattern, 0);
      replacement + s[|pattern|..]
    else
      ContainsTail(s, pattern);
      assert [s[0]] + s[1..] == s;
      [s[0]] + ReplaceFirst(s[1..], pattern, replacement)
  }

  /** A first character that cannot start the pattern is kept in front. */
  lemma ReplaceFirstSkips(c: char, t: string, pattern: string, replacement: string)
    requires |pattern| > 0 && c != pattern[0]
    ensures ReplaceFirst([c] + t, pattern, replacement) == [c] + ReplaceFirst(t, pattern, replacement)
  {
    var s := [c] + t;
    assert s[1..] == t;
    if |s| >= |pattern| {
      assert s[..|pattern|][0] == c;
    }
  }

  lemma ContainsTail(s: string, sep: string)
    requires |s| > 0
    ensures Contains(s[1..], sep) ==> Contains(s, sep)
  {
    if Contains(s[1..], sep) {
      var i :| 0 <= i <= |s[1..]| && OccursAt(s[1..], sep, i);
      assert s[1..][i..i + |sep|] == s[i + 1..i + 1 + |sep|];
      assert OccursAt(s, sep, i + 1);
    }
  }

  /** ASCII case folding, the part of the case-insensitive (`i` flag) regular
      expression comparison that this model keeps. */
  function Lower(c: char): char {
    if 'A' <= c <= 'Z' then (c as int + 32) as char else c
  }

  /** Equality up to ASCII case. */
  predicate FoldEq(a: string, b: string) {
    |a| == |b| && forall i :: 0 <= i < |a| ==> Lower(a[i]) == Lower(b[i])
  }
}
